=== FILE: README.md ===
# AWS idle resource cleaner — a Dafny model

The AWS Idle Resource Cleaner looks in one or more AWS regions for three kinds of idle
resources:

- Elastic IP addresses that are attached to nothing;
- EBS snapshots that are older than an age limit;
- EC2 instances whose launch time is older than an age limit.

It then releases, deletes or terminates them. There are two entry points:

- `aws_cleaner.py` is a command-line tool (`main`). It scans either the configured region or every region, asks for confirmation before a live cleanup, and keeps per-kind totals.
- `lambda_function.py` is a scheduled function (`lambda_handler`). It reads its configuration from an event, runs `cleanup_resources` in every listed region, and adds up the counts and errors into one response.

The model is built like this:

- Everything the program observes in one region is a `RegionWorld` value:
  - the current time;
  - the three `describe_*` listings, each either a list or `Failed`;
  - one failure oracle per mutating call, indexed by the candidate's position.
- Each answer to a confirmation prompt is read from an infinite stream of answers, through a cursor.
- Every mutating call the program would make is recorded as a `Call` value. That makes "a dry run changes nothing" a statement about the recorded calls.
- Timestamps are whole seconds. The age cutoff is `now - days * 86400`.

The modules:

- `Basics`: the `Option` and `Describe` wrappers.
- `Seqs`: a filter-map `Select` and the list `Positions` of indices where a predicate holds.
- `Text`: substring search and ASCII lower-casing.
- `Records`: the records the program reads and builds.
- `Finders`: the three `find_*` methods and `_get_instance_name`, for both entry points.
- `Cleaners`: the three `clean_*` loops of the command line, and the per-kind loops of `cleanup_resources`.
- `Cli`: the region and kind loop of `main`.
- `LambdaCleaner`: `cleanup_resources` and `lambda_handler`.

Both `find_stopped_instances` docstrings (aws_cleaner.py:86, lambda_function.py:65) promise instances "stopped for more than specified days". Neither body does that, and the model follows the bodies:

- The command-line finder loops over the *characters* of `StateTransitionReason` and looks for `'stopped'` inside each lower-cased character. One character can never contain that word, so the finder always returns an empty list. `Finders.FindStoppedInstancesCli` proves this, and `Cli.Main` consequently never counts or terminates an instance.
- The scheduled finder asks the listing for stopped instances only, then keeps every instance the listing returns whose launch time is before the cutoff. The time compared is the launch time, not the time of stopping.

## Model

| member | source | states |
|---|---|---|
| Records.Cutoff | aws_cleaner.py:66 | `datetime.now() - timedelta(days=days)` has a value if and only if the day count is within timedelta's ±999999999 days and the instant lands in years 1 to 9999. The value is `now` less `days` times 86400 seconds. Otherwise the expression raises `OverflowError` (None). The same expression appears at aws_cleaner.py:88 and lambda_function.py:45 and 67. |
| Finders.FindUnusedElasticIps | aws_cleaner.py:44-61 | A failed listing yields no addresses. The result contains exactly the addresses with neither an instance id nor a network-interface id. Each keeps its allocation id and public IP, and its domain defaults to "classic". It is never longer than the listing. |
| Finders.UnusedEipsInOrder | lambda_function.py:29-35 | The finder over two concatenated listings is the finder over the first followed by the finder over the second, so order is kept. |
| Finders.UnusedEipSingle | lambda_function.py:30-35 | A single address is reported if and only if it is unattached, and then as its projected record. |
| Finders.FindOldSnapshots | aws_cleaner.py:63-83 | A failed listing yields nothing, and so does a cutoff `datetime` cannot represent (the subtraction raises inside the `try`). Otherwise every reported snapshot started strictly before `now - days*86400`, every such snapshot is reported with a missing description replaced by "No description", and nothing else is reported. |
| Finders.SnapshotBoundary | aws_cleaner.py:71-72 | A snapshot started exactly at the cutoff is not reported. One started a second earlier is reported, so the comparison is strict. |
| Finders.SnapshotSingle | lambda_function.py:49-57 | A single listed snapshot is reported exactly once when it started before the cutoff, and not at all otherwise (or when the cutoff overflows). |
| Finders.OldSnapshotsInOrder | lambda_function.py:49-57 | The snapshot finder distributes over concatenation of listings, so snapshots stay in listing order. |
| Finders.InstanceName | aws_cleaner.py:117-123 | With no tag keyed "Name" (or no tags at all) the name is "No Name". Otherwise it is the value of the first tag keyed "Name". |
| Finders.FirstName | lambda_function.py:90-96 | Searches the tag list from the front: the result is the first "Name" tag's value, or "No Name" when no tag has that key. |
| Finders.ScanReasonChars | aws_cleaner.py:97-110 | Scanning the characters of a transition reason for the word "stopped" matches no character, so it adds nothing. |
| Finders.FindStoppedInstancesCli | aws_cleaner.py:85-115 | The command-line stopped-instance finder returns the empty list for every listing and every clock reading. |
| Finders.AllInstances | lambda_function.py:73-74 | Flattens the reservations: an instance is in the result if and only if some reservation holds it. |
| Finders.FindStoppedInstances | lambda_function.py:64-88 | A failed listing yields nothing, and so does a cutoff `datetime` cannot represent. Otherwise every reported instance was launched strictly before the cutoff. Every such instance of every reservation is reported with its state name and its `_get_instance_name` name, whatever its state. Nothing else is reported. |
| Finders.NegativeAgeFindsNothing | lambda_function.py:43-88 | A negative age limit of ten thousand years or more puts the cutoff past year 9999. The subtraction then raises, so both age-based finders report nothing, whatever the listing. |
| Finders.StoppedInstanceSingle | lambda_function.py:73-83 | A single instance in a single reservation is reported exactly once when it was launched before the cutoff, and not at all otherwise (or when the cutoff overflows). |
| Finders.StoppedInstancesInOrder | lambda_function.py:73-83 | The finder over two concatenated reservation lists is the two results concatenated, so instances keep reservation order. |
| Cleaners.SweepItems | lambda_function.py:115-129 | The shared count-unless-the-call-fails loop. A dry run counts every item and issues and reports nothing. A live run issues one call per item, reports one error per failing call, and counts the rest. |
| Cleaners.SweepCallsInOrder | lambda_function.py:166-170 | In a live run, the i-th call is the call for the i-th item. |
| Cleaners.SweepErrorsInOrder | lambda_function.py:171-175 | The k-th error belongs to the k-th failing item, in item order. |
| Cleaners.SweepSplitsItems | lambda_function.py:117-127 | Every item is either counted or reported as an error, never both. |
| Seqs.PositionsSound | lambda_function.py:123-127 | Every position listed as failing is one whose call fails. |
| Seqs.PositionsComplete | lambda_function.py:123-127 | Every item whose call fails is listed. |
| Seqs.PositionsIncreasing | lambda_function.py:117-127 | Failures are listed in item order, each once. |
| Seqs.PositionsNone | lambda_function.py:117-121 | When no call fails, no failure is listed. |
| Cleaners.ReleaseCall | aws_cleaner.py:134-137 | An address in domain "vpc" is released by its allocation id, and any other address by its public IP. |
| Cleaners.CleanElasticIps | aws_cleaner.py:125-147 | A dry run counts every address and releases none. A live run issues one release per address and counts those that did not fail, with one error per failed release. |
| Cleaners.EipReleasesInOrder | lambda_function.py:115-127 | The i-th release uses the allocation id or the public IP of the i-th address, according to its domain. Errors follow the order of the failing addresses. |
| Cleaners.CleanSnapshots | aws_cleaner.py:149-169 | A dry run counts every snapshot and deletes none. A live run deletes each one and counts the deletions that did not fail. |
| Cleaners.SnapshotDeletesInOrder | lambda_function.py:142-153 | The i-th deletion names the i-th snapshot's id. Each error names a failing snapshot, in order. |
| Cleaners.TerminateAll | lambda_function.py:166-177 | A dry run counts every instance and terminates none. A live run terminates each one, without any prompt, and counts those that did not fail. |
| Cleaners.TerminationsInOrder | lambda_function.py:169 | The i-th termination names exactly the i-th instance's id. |
| Cleaners.CleanStoppedInstances | aws_cleaner.py:171-194 | A dry run counts nothing, asks nothing and terminates nothing, so it returns 0. A live run asks once per instance and issues one termination per confirmed instance. It counts the confirmed instances whose termination succeeded, and reports one error per confirmed instance whose termination failed. The k-th termination is for the k-th confirmed instance, and the k-th error names the k-th confirmed instance whose termination failed. |
| Cleaners.ConfirmAndTerminate | aws_cleaner.py:180-192 | One prompt per instance. One termination per confirmed instance. The count is the confirmed instances whose termination succeeded, and the errors are the confirmed instances whose termination failed. |
| Cleaners.ConfirmedCallsInOrder | aws_cleaner.py:182-183 | The k-th termination is for the k-th confirmed instance. |
| Cleaners.RefusedErrorsInOrder | aws_cleaner.py:190-192 | The k-th error names the k-th confirmed instance whose termination failed. |
| Cleaners.DeclinedAreSkipped | aws_cleaner.py:188-189 | Terminated instances, failed terminations and declined instances together account for every instance exactly once. |
| Cli.RegionsToScan | aws_cleaner.py:35-42 | Without `--all-regions` only the configured region is scanned. With it, every listed region is scanned, or only the configured region when the region listing fails. |
| Cli.CleanKind | aws_cleaner.py:237-265 | A dry run issues and prompts nothing. A dry Elastic IP or snapshot cleanup counts every candidate. A live one counts and calls exactly as `clean_elastic_ips` or `clean_snapshots` does over the finder's candidates. Instances are never cleaned. It reads no answer of its own, since the only per-item prompt belongs to instances. Every call made is of the kind being cleaned. |
| Cli.KindsLoop | aws_cleaner.py:228-268 | A dry run adds no call and consumes no answer, and `--force` consumes no answer. The instance total never changes and no termination is issued. When no enabled kind has a candidate, nothing changes at all. |
| Cli.DryRunCountsCandidates | aws_cleaner.py:229-252 | In a dry run, each kind's total grows by its finder's number of candidates when the kind is enabled. |
| Cli.LiveStep | aws_cleaner.py:229-265 | One step of a live pass. Either the kind's prompt is declined and the pass ends, or the kind is cleaned in full and the pass goes on. A disabled kind, or one without candidates, asks nothing, reads no answer, does not stop the pass and adds nothing. An enabled kind with candidates, when prompts are on, stops the pass exactly when its answer is no. When the pass goes on, that kind's prompt has read exactly one answer, and a kind with no prompt has read none. |
| Cli.AdvanceThenRest | aws_cleaner.py:228-268 | Cleaning the first kind in full and then a prefix of the rest adds up to the gains and calls of the longer prefix of the whole list. |
| Cli.LiveRunsAPrefix | aws_cleaner.py:228-268 | A live pass cleans a prefix of the kinds in full, in kind order. With `--force`, or when every prompt is accepted, it cleans all of them. |
| Cli.FindsNoInstances | aws_cleaner.py:259-260 | The command line always finds zero instances in a region. |
| Cli.RegionPass | aws_cleaner.py:224-268 | One region's pass. A dry run adds exactly the enabled kinds' candidate counts. It issues no call, and with `--force` asks nothing. |
| Cli.LiveRegionPass | aws_cleaner.py:224-268 | In a live pass, each kind's total grows either by nothing or by exactly what that kind's cleaner counts in the region. |
| Cli.AcceptedRegionPass | aws_cleaner.py:224-268 | With `--force`, or when every prompt is accepted, each enabled kind's total grows by its cleaner's count. The calls are the Elastic IP releases, then the snapshot deletions. |
| Cli.DeclineSkipsRestOfRegion | aws_cleaner.py:234-236 | Declining the Elastic IP prompt ends the region's pass. Only that answer is consumed; nothing is counted and no snapshot is deleted. |
| Cli.RegionsLoop | aws_cleaner.py:222-268 | Over the remaining regions, a dry run adds every enabled kind's candidates in every region and issues no call. |
| Cli.DeclineMovesToNextRegion | aws_cleaner.py:234-236 | A declined prompt is a `continue`, not a `break`: the loop goes on with the next region, one answer further along. |
| Cli.LiveRegionsBound | aws_cleaner.py:222-268 | Over the remaining regions of a live run, each total grows by at most the sum of its cleaners' counts over those regions. |
| Cli.AcceptedRegionsTotals | aws_cleaner.py:222-268 | With `--force`, or when every prompt is accepted, each total grows by exactly the sum of its cleaners' counts over the remaining regions. |
| Cli.AcceptedRegionsCalls | aws_cleaner.py:222-268 | With `--force`, or when every prompt is accepted, the calls are the regions' calls, one region after the other. |
| Cli.Main | aws_cleaner.py:206-274 | A dry run issues no call and asks nothing, and its totals are the candidates over all scanned regions. `--force` asks nothing. The instance total is always 0 and no termination is ever issued. |
| Cli.LiveMain | aws_cleaner.py:206-274 | A live run's totals never exceed what the cleaners count over all scanned regions. With `--force`, or when every prompt is accepted, the totals are exactly those counts and the calls are every region's calls in region order. |
| Cli.DefaultsDoNothing | aws_cleaner.py:196-206 | With every option at its default (a dry run of no kind), `main` counts, asks and calls nothing. |
| LambdaCleaner.KindSweep | lambda_function.py:109-181 | A disabled kind does nothing. A dry run counts the candidates. A live run calls once per candidate and counts the calls that did not fail, with one error per failure. |
| LambdaCleaner.CleanupResources | lambda_function.py:98-183 | The result carries the region and the clock. Disabled kinds stay at 0, and a dry run counts every candidate of an enabled kind. There is one error per failing call. A dry run issues no call and reports no error. Calls are only of enabled kinds. |
| LambdaCleaner.LiveCountsExcludeFailures | lambda_function.py:115-129 | In a live run, an enabled kind's count is its number of candidates minus the number of failed calls, because a failure skips the increment. |
| LambdaCleaner.RegionCallCount | lambda_function.py:109-177 | A live region issues exactly one call per candidate of each enabled kind. |
| LambdaCleaner.RegionReleaseAt | lambda_function.py:115-122 | The region's calls start with the address releases, the j-th releasing the j-th candidate address. |
| LambdaCleaner.RegionDeleteAt | lambda_function.py:142-146 | The snapshot deletions follow the releases, the j-th naming the j-th candidate snapshot. |
| LambdaCleaner.RegionTerminationAt | lambda_function.py:166-170 | The terminations come last, the j-th naming the j-th candidate instance. |
| LambdaCleaner.RegionReleaseErrorAt | lambda_function.py:123-127 | The errors start with the failed releases, in order, each naming its address's public IP. |
| LambdaCleaner.RegionDeleteErrorAt | lambda_function.py:147-151 | The failed snapshot deletions come next, in order, each naming its snapshot id. |
| LambdaCleaner.RegionTerminateErrorAt | lambda_function.py:171-175 | The failed terminations come last, in order, each naming its instance id. |
| LambdaCleaner.HandlerConfig | lambda_function.py:204-211 | Every key is filled in: dry_run true, the three clean flags false, snapshot_days 30, instance_days 7. Present keys keep their values, each one as given. |
| LambdaCleaner.HandlerDefaultsAgree | lambda_function.py:107-162 | The handler's defaults equal `cleanup_resources`' own defaults, so the filled-in configuration cleans every region exactly as the raw event would. |
| LambdaCleaner.EmptyConfigDoesNothing | lambda_function.py:107-110 | With no key set, a region pass counts nothing, reports nothing and calls nothing. |
| LambdaCleaner.ResolveRegion | lambda_function.py:19-21 | A non-empty region name is kept. A missing or empty one falls back to the session's region. |
| LambdaCleaner.Reached | lambda_function.py:219-222 | The number of regions the loop gets through. Every region before it resolves to a name, and the region at it, if any, does not. |
| LambdaCleaner.RegionsCallsOfPrefix | lambda_function.py:219-224 | The calls of the first regions do not depend on the regions after them. |
| LambdaCleaner.RegionsCallsEnabled | lambda_function.py:219-224 | Every call of the region loop is of a kind its configuration enables. |
| LambdaCleaner.ProcessRegions | lambda_function.py:219-224 | The loop completes if and only if every region resolves to a name, and then yields one result per region. Otherwise it stops with the no-region fault. Its calls are exactly the cleanup calls of the regions it gets through (`Reached`: all of them, or those before the first unresolved one), one region after the other. It issues no call when no region's cleanup does. |
| LambdaCleaner.ResultFollowsRegion | lambda_function.py:220-224 | On completion, the i-th result is the cleanup of the i-th region under its resolved name. |
| LambdaCleaner.Aggregate | lambda_function.py:226-233 | Each kind's total is the sum of the regions' counts of that kind. The errors are all regions' errors, concatenated in region order. |
| LambdaCleaner.RunRegions | lambda_function.py:213-248 | The run completes, with status 200, if and only if every region resolves to a name (it is non-empty, or the session has a region). regions_processed is the number of regions, which is also the number of results. dry_run echoes the configuration, and the totals and errors are the aggregates. A failure is 500 with the no-region fault. The calls are the regions' cleanup calls in region order, up to the first unresolved region. Every call is of an enabled kind, and a dry run issues no call. |
| LambdaCleaner.RegionResultIsCleanup | lambda_function.py:220-224 | On success, the i-th detailed result is `cleanup_resources` of the i-th region with the handler's configuration. |
| LambdaCleaner.LambdaHandler | lambda_function.py:186-258 | The status is 200 exactly when the body is a completed report and 500 otherwise, with "Cleanup failed". An event listing its regions succeeds if and only if every name is non-empty or the session has a region. An event without regions succeeds if and only if the session has a region. A non-object event or a non-iterable regions value fails with no call. Without regions, the session's region is the only region. On success the counts and errors add up over the detailed results. The calls are the cleanup calls of the listed regions (or of the session's region), in region order, under the filled-in configuration. Every call is of a kind the event enables, and a dry run issues no call. |
| LambdaCleaner.HandlerResultIsCleanup | lambda_function.py:213-224 | For an event listing its regions, the i-th detailed result is `cleanup_resources` of the i-th name (or of the session's region for an empty name) with the event's own settings. |

## Left out

- AWS calls (`describe_*`, `release_address`, `delete_snapshot`, `terminate_instances`) are modelled as listings and per-position failure oracles, not performed. Exception texts become the `ItemError` and `Fault` constructors.
- Logging, `print` and colour output are left out: none of them changes what is counted or called.
- The command line reports its per-item errors only by printing them. The model records them in the same way the scheduled function's error list does.
- Clock and dates: `datetime.now()` is read once per region pass, as the `now` field of the region's world. Timezone stripping and `isoformat` are not modelled. Timestamps are whole seconds, so sub-second differences at the cutoff are not modelled. The `OverflowError` of `datetime.now() - timedelta(days=days)` is modelled: it happens when `days` is beyond ±999999999 or the cutoff falls outside years 1 to 9999.
- Records that lack a subscripted field (`snapshot['StartTime']`, `instance['LaunchTime']`, `tag['Key']` and so on) would raise inside a finder's `try`, which returns the empty list. The model makes those fields mandatory and represents every such failure as a `Failed` listing.
- The outer `except` blocks of `cleanup_resources` (lambda_function.py:130-133, 154-157, 178-181) are left out. Every exception their bodies can raise is already caught inside the finders or inside the per-item `try`.
- Finders.FindStoppedInstancesCli: lower-casing is modelled on ASCII only. In Python, lower-casing one character yields at most a few characters, never the seven of "stopped", so the empty result holds for all text.
- Event values of the wrong type are left out: non-boolean flags, non-integer days, and a string `regions` value, which Python would iterate character by character. `regions` is either a list of names or a non-iterable value.
- Region names are checked only for being present and non-empty. Other rejections by the AWS client library for malformed names are left out.
- Cli.Main: option parsing by `click` is left out; the options arrive already parsed. The end of input at a prompt (`click.Abort`) is left out: the answer stream is infinite.
- The test file `test_cleaner.py` is left out: it only checks live AWS connectivity and permissions and runs the finders against a real account, and adds no behaviour.

=== FILE: basics.dfy ===
/** Optional values and the outcome of a provider "describe" request. */
module Basics {

  /** A field that a provider record may or may not carry (`dict.get` without a default). */
  datatype Option<+T> = None | Some(value: T) {

    /** `dict.get(key, fallback)`: the carried value, or `fallback` when the key is absent. */
    function ValueOr(fallback: T): T {
      if Some? then value else fallback
    }
  }

  /** The listing a finder works on: the records of one describe request, or a failure of
      that request (or of anything else inside the finder's `try`), which the finder logs
      and turns into an empty candidate list. */
  datatype Describe<+T> = Listed(items: seq<T>) | Failed
}

=== FILE: cleaners.dfy ===
/** The cleaners: one mutating call per candidate, each failure caught and recorded, and no
    call at all in a dry run. */
module Cleaners {
  import opened Seqs
  import opened Records

  /** What one cleaning loop did: how many items it counted, the calls it issued in
      order, and one error message per failing call. */
  datatype Sweep = Sweep(cleaned: nat, calls: seq<Call>, errors: seq<ItemError>)

  /** The loop shared by `clean_elastic_ips`, `clean_snapshots` and the three loops of
      `cleanup_resources`: in a dry run each item is counted; otherwise each item's call is
      issued, a failing call (`fails` of its position) adds an error and is not counted,
      and the loop goes on with the next item either way. */
  function SweepItems<T>(items: seq<T>, dryRun: bool, callOf: T -> Call, errorOf: T -> ItemError,
                         fails: nat -> bool): (r: Sweep)
    ensures dryRun ==> r == Sweep(|items|, [], [])
    ensures !dryRun ==> |r.calls| == |items|
    ensures !dryRun ==> r.cleaned == |items| - |Positions(fails, |items|)|
    ensures !dryRun ==> |r.errors| == |Positions(fails, |items|)|
    ensures forall c :: c in r.calls ==> exists i :: 0 <= i < |items| && c == callOf(items[i])
  {
    if |items| == 0 then Sweep(0, [], [])
    else
      var i := |items| - 1;
      var prev := SweepItems(items[..i], dryRun, callOf, errorOf, fails);
      assert forall j :: 0 <= j < i ==> items[..i][j] == items[j];
      if dryRun then prev.(cleaned := prev.cleaned + 1)
      else if fails(i) then prev.(calls := prev.calls + [callOf(items[i])], errors := prev.errors + [errorOf(items[i])])
      else prev.(cleaned := prev.cleaned + 1, calls := prev.calls + [callOf(items[i])])
  }

  /** A live loop attempts every item, in order: a failing call does not stop the next. */
  lemma {:induction false} SweepCallsInOrder<T>(items: seq<T>, callOf: T -> Call, errorOf: T -> ItemError, fails: nat -> bool)
    ensures var r := SweepItems(items, false, callOf, errorOf, fails);
      forall i :: 0 <= i < |items| ==> r.calls[i] == callOf(items[i])
  {
    if |items| > 0 {
      var n := |items| - 1;
      SweepCallsInOrder(items[..n], callOf, errorOf, fails);
      var prev := SweepItems(items[..n], false, callOf, errorOf, fails);
      var r := SweepItems(items, false, callOf, errorOf, fails);
      assert r.calls == prev.calls + [callOf(items[n])];
      forall i | 0 <= i < n ensures r.calls[i] == callOf(items[i]) {
        assert r.calls[i] == prev.calls[i];
        assert items[..n][i] == items[i];
      }
    }
  }

  /** A live loop reports exactly the failing items, in order: the k-th error is the
      message of the k-th failing position. */
  lemma {:induction false} SweepErrorsInOrder<T>(items: seq<T>, callOf: T -> Call, errorOf: T -> ItemError, fails: nat -> bool)
    ensures var r := SweepItems(items, false, callOf, errorOf, fails);
      forall k :: 0 <= k < |r.errors| ==> r.errors[k] == errorOf(items[Positions(fails, |items|)[k]])
  {
    if |items| > 0 {
      var n := |items| - 1;
      SweepErrorsInOrder(items[..n], callOf, errorOf, fails);
      var prev := SweepItems(items[..n], false, callOf, errorOf, fails);
      var r := SweepItems(items, false, callOf, errorOf, fails);
      var before := Positions(fails, n);
      var after := Positions(fails, |items|);
      assert after == before + (if fails(n) then [n] else []);
      assert r.errors == prev.errors + (if fails(n) then [errorOf(items[n])] else []);
      forall k | 0 <= k < |r.errors| ensures r.errors[k] == errorOf(items[after[k]]) {
        if k < |prev.errors| {
          assert after[k] == before[k];
          assert items[..n][before[k]] == items[before[k]];
        }
      }
    }
  }

  /** The counted items and the reported items split the list between them. */
  lemma SweepSplitsItems<T>(items: seq<T>, dryRun: bool, callOf: T -> Call, errorOf: T -> ItemError, fails: nat -> bool)
    ensures SweepItems(items, dryRun, callOf, errorOf, fails).cleaned + |SweepItems(items, dryRun, callOf, errorOf, fails).errors| == |items|
  {
  }

  // ----- Elastic IPs -----

  /** The release call for one address: by allocation id in a VPC, by public IP otherwise. */
  function ReleaseCall(e: Eip): (c: Call)
    ensures c.ReleaseByAllocationId? <==> e.domain == "vpc"
    ensures c.ReleaseByAllocationId? ==> c.allocationId == e.allocationId
    ensures c.ReleaseByPublicIp? ==> c.publicIp == e.publicIp
  {
    if e.domain == "vpc" then ReleaseByAllocationId(e.allocationId) else ReleaseByPublicIp(e.publicIp)
  }

  function ReleaseError(e: Eip): ItemError {
    ReleaseFailed(e.publicIp)
  }

  /** `clean_elastic_ips`. */
  function CleanElasticIps(eips: seq<Eip>, dryRun: bool, fails: nat -> bool): (r: Sweep)
    ensures dryRun ==> r.cleaned == |eips| && r.calls == [] && r.errors == []
    ensures !dryRun ==> |r.calls| == |eips|
    ensures !dryRun ==> r.cleaned == |eips| - |Positions(fails, |eips|)|
    ensures !dryRun ==> |r.errors| == |Positions(fails, |eips|)|
    ensures forall c :: c in r.calls ==> c.Kind() == Eips
  {
    SweepItems(eips, dryRun, ReleaseCall, ReleaseError, fails)
  }

  /** Live, the i-th release goes by allocation id exactly when the i-th address is in a
      VPC, and by public IP otherwise; the k-th error names the k-th failing address. */
  lemma EipReleasesInOrder(eips: seq<Eip>, fails: nat -> bool)
    ensures var r := CleanElasticIps(eips, false, fails);
      && (forall i :: 0 <= i < |eips| ==>
            r.calls[i] == if eips[i].domain == "vpc" then ReleaseByAllocationId(eips[i].allocationId)
                          else ReleaseByPublicIp(eips[i].publicIp))
      && (forall k :: 0 <= k < |r.errors| ==> r.errors[k] == ReleaseFailed(eips[Positions(fails, |eips|)[k]].publicIp))
  {
    SweepCallsInOrder(eips, ReleaseCall, ReleaseError, fails);
    SweepErrorsInOrder(eips, ReleaseCall, ReleaseError, fails);
  }

  // ----- Snapshots -----

  function DeleteCall(s: Snapshot): Call {
    DeleteSnapshot(s.snapshotId)
  }

  function DeleteError(s: Snapshot): ItemError {
    DeleteFailed(s.snapshotId)
  }

  /** `clean_snapshots`. */
  function CleanSnapshots(snapshots: seq<Snapshot>, dryRun: bool, fails: nat -> bool): (r: Sweep)
    ensures dryRun ==> r.cleaned == |snapshots| && r.calls == [] && r.errors == []
    ensures !dryRun ==> |r.calls| == |snapshots|
    ensures !dryRun ==> r.cleaned == |snapshots| - |Positions(fails, |snapshots|)|
    ensures !dryRun ==> |r.errors| == |Positions(fails, |snapshots|)|
    ensures forall c :: c in r.calls ==> c.Kind() == Snapshots
  {
    SweepItems(snapshots, dryRun, DeleteCall, DeleteError, fails)
  }

  /** Live, every snapshot is deleted by id in order, and the k-th error names the k-th
      failing snapshot. */
  lemma SnapshotDeletesInOrder(snapshots: seq<Snapshot>, fails: nat -> bool)
    ensures var r := CleanSnapshots(snapshots, false, fails);
      && (forall i :: 0 <= i < |snapshots| ==> r.calls[i] == DeleteSnapshot(snapshots[i].snapshotId))
      && (forall k :: 0 <= k < |r.errors| ==> r.errors[k] == DeleteFailed(snapshots[Positions(fails, |snapshots|)[k]].snapshotId))
  {
    SweepCallsInOrder(snapshots, DeleteCall, DeleteError, fails);
    SweepErrorsInOrder(snapshots, DeleteCall, DeleteError, fails);
  }

  // ----- Instances -----

  function TerminateCall(inst: StoppedInstance): Call {
    TerminateInstances([inst.instanceId])
  }

  function TerminateError(inst: StoppedInstance): ItemError {
    TerminateFailed(inst.instanceId)
  }

  /** The terminate loop of `cleanup_resources`: no confirmation step. */
  function TerminateAll(insts: seq<StoppedInstance>, dryRun: bool, fails: nat -> bool): (r: Sweep)
    ensures dryRun ==> r.cleaned == |insts| && r.calls == [] && r.errors == []
    ensures !dryRun ==> |r.calls| == |insts|
    ensures !dryRun ==> r.cleaned == |insts| - |Positions(fails, |insts|)|
    ensures !dryRun ==> |r.errors| == |Positions(fails, |insts|)|
    ensures forall c :: c in r.calls ==> c.Kind() == Instances
  {
    SweepItems(insts, dryRun, TerminateCall, TerminateError, fails)
  }

  /** Live, every instance is terminated on its own, in order, and the k-th error names the
      k-th failing instance. */
  lemma TerminationsInOrder(insts: seq<StoppedInstance>, fails: nat -> bool)
    ensures var r := TerminateAll(insts, false, fails);
      && (forall i :: 0 <= i < |insts| ==> r.calls[i] == TerminateInstances([insts[i].instanceId]))
      && (forall k :: 0 <= k < |r.errors| ==> r.errors[k] == TerminateFailed(insts[Positions(fails, |insts|)[k]].instanceId))
  {
    SweepCallsInOrder(insts, TerminateCall, TerminateError, fails);
    SweepErrorsInOrder(insts, TerminateCall, TerminateError, fails);
  }

  /** What the confirming terminate loop did, and how many answers it consumed. */
  datatype Confirmed = Confirmed(cleaned: nat, calls: seq<Call>, errors: seq<ItemError>, prompts: nat)

  /** Positions whose prompt was accepted and whose terminate call went through. */
  function Terminated(confirm: nat -> bool, fails: nat -> bool): nat -> bool {
    (i: nat) => confirm(i) && !fails(i)
  }

  /** Positions whose prompt was accepted and whose terminate call failed. */
  function Refused(confirm: nat -> bool, fails: nat -> bool): nat -> bool {
    (i: nat) => confirm(i) && fails(i)
  }

  /** `clean_stopped_instances` of the command-line tool: a dry run counts nothing (the
      count is only incremented after a terminate call) and asks nothing. */
  function CleanStoppedInstances(insts: seq<StoppedInstance>, dryRun: bool, confirm: nat -> bool,
                                 fails: nat -> bool): (r: Confirmed)
    ensures dryRun ==> r == Confirmed(0, [], [], 0)
    ensures !dryRun ==> r.prompts == |insts|
    ensures !dryRun ==> |r.calls| == |Positions(confirm, |insts|)|
    ensures !dryRun ==> r.cleaned == |Positions(Terminated(confirm, fails), |insts|)|
    ensures !dryRun ==> |r.errors| == |Positions(Refused(confirm, fails), |insts|)|
    ensures !dryRun ==> r.cleaned + |r.errors| == |Positions(confirm, |insts|)|
    ensures !dryRun ==> forall k :: 0 <= k < |r.calls| ==>
      r.calls[k] == TerminateInstances([insts[Positions(confirm, |insts|)[k]].instanceId])
    ensures !dryRun ==> forall k :: 0 <= k < |r.errors| ==>
      r.errors[k] == TerminateFailed(insts[Positions(Refused(confirm, fails), |insts|)[k]].instanceId)
    ensures forall c :: c in r.calls ==> c.Kind() == Instances
  {
    if dryRun then Confirmed(0, [], [], 0)
    else
      PositionsSplit(confirm, fails, |insts|);
      ConfirmedCallsInOrder(insts, confirm, fails);
      RefusedErrorsInOrder(insts, confirm, fails);
      ConfirmAndTerminate(insts, confirm, fails)
  }

  /** The live loop of `clean_stopped_instances`: each instance is put to a prompt
      (`confirm` of its position); a declined one is skipped without count or error; an
      accepted one is terminated, counted on success and reported on failure. */
  function ConfirmAndTerminate(insts: seq<StoppedInstance>, confirm: nat -> bool, fails: nat -> bool): (r: Confirmed)
    ensures r.prompts == |insts|
    ensures |r.calls| == |Positions(confirm, |insts|)|
    ensures r.cleaned == |Positions(Terminated(confirm, fails), |insts|)|
    ensures |r.errors| == |Positions(Refused(confirm, fails), |insts|)|
    ensures forall c :: c in r.calls ==> c.Kind() == Instances
  {
    if |insts| == 0 then Confirmed(0, [], [], 0)
    else
      var i := |insts| - 1;
      var prev := ConfirmAndTerminate(insts[..i], confirm, fails);
      PositionsStep(confirm, fails, |insts|);
      var asked := prev.(prompts := prev.prompts + 1);
      if !confirm(i) then asked
      else if fails(i) then asked.(calls := prev.calls + [TerminateCall(insts[i])], errors := prev.errors + [TerminateError(insts[i])])
      else asked.(cleaned := prev.cleaned + 1, calls := prev.calls + [TerminateCall(insts[i])])
  }

  /** How the live loop's calls and errors grow by the last instance. */
  lemma ConfirmStep(insts: seq<StoppedInstance>, confirm: nat -> bool, fails: nat -> bool)
    requires |insts| > 0
    ensures var i := |insts| - 1;
      var r := ConfirmAndTerminate(insts, confirm, fails);
      var prev := ConfirmAndTerminate(insts[..i], confirm, fails);
      && r.calls == prev.calls + (if confirm(i) then [TerminateInstances([insts[i].instanceId])] else [])
      && r.errors == prev.errors + (if confirm(i) && fails(i) then [TerminateFailed(insts[i].instanceId)] else [])
  {
  }

  /** The k-th terminate call is for the k-th instance whose prompt was accepted. */
  lemma {:induction false} ConfirmedCallsInOrder(insts: seq<StoppedInstance>, confirm: nat -> bool, fails: nat -> bool)
    ensures var r := ConfirmAndTerminate(insts, confirm, fails);
      forall k :: 0 <= k < |r.calls| ==> r.calls[k] == TerminateInstances([insts[Positions(confirm, |insts|)[k]].instanceId])
  {
    if |insts| > 0 {
      var i := |insts| - 1;
      ConfirmedCallsInOrder(insts[..i], confirm, fails);
      var prev := ConfirmAndTerminate(insts[..i], confirm, fails);
      var r := ConfirmAndTerminate(insts, confirm, fails);
      var before := Positions(confirm, i);
      var after := Positions(confirm, |insts|);
      ConfirmStep(insts, confirm, fails);
      assert after == before + (if confirm(i) then [i] else []);
      forall k | 0 <= k < |r.calls|
        ensures r.calls[k] == TerminateInstances([insts[after[k]].instanceId])
      {
        if k < |prev.calls| {
          assert after[k] == before[k];
          assert insts[..i][before[k]] == insts[before[k]];
        }
      }
    }
  }

  /** The k-th error names the k-th instance whose prompt was accepted and whose terminate
      call failed. */
  lemma {:induction false} RefusedErrorsInOrder(insts: seq<StoppedInstance>, confirm: nat -> bool, fails: nat -> bool)
    ensures var r := ConfirmAndTerminate(insts, confirm, fails);
      forall k :: 0 <= k < |r.errors| ==> r.errors[k] == TerminateFailed(insts[Positions(Refused(confirm, fails), |insts|)[k]].instanceId)
  {
    if |insts| > 0 {
      var i := |insts| - 1;
      RefusedErrorsInOrder(insts[..i], confirm, fails);
      var prev := ConfirmAndTerminate(insts[..i], confirm, fails);
      var r := ConfirmAndTerminate(insts, confirm, fails);
      var before := Positions(Refused(confirm, fails), i);
      var after := Positions(Refused(confirm, fails), |insts|);
      ConfirmStep(insts, confirm, fails);
      PositionsStep(confirm, fails, |insts|);
      forall k | 0 <= k < |r.errors|
        ensures r.errors[k] == TerminateFailed(insts[after[k]].instanceId)
      {
        if k < |prev.errors| {
          assert after[k] == before[k];
          assert insts[..i][before[k]] == insts[before[k]];
        }
      }
    }
  }

  /** How the three position lists grow by one position. */
  lemma PositionsStep(confirm: nat -> bool, fails: nat -> bool, n: nat)
    requires n > 0
    ensures Positions(confirm, n) == Positions(confirm, n - 1) + (if confirm(n - 1) then [n - 1] else [])
    ensures Positions(Terminated(confirm, fails), n)
         == Positions(Terminated(confirm, fails), n - 1) + (if confirm(n - 1) && !fails(n - 1) then [n - 1] else [])
    ensures Positions(Refused(confirm, fails), n)
         == Positions(Refused(confirm, fails), n - 1) + (if confirm(n - 1) && fails(n - 1) then [n - 1] else [])
  {
  }

  /** Declined instances are neither counted nor errors: the counted, the failed and the
      declined instances partition the list. */
  lemma DeclinedAreSkipped(insts: seq<StoppedInstance>, confirm: nat -> bool, fails: nat -> bool)
    ensures CleanStoppedInstances(insts, false, confirm, fails).cleaned
          + |CleanStoppedInstances(insts, false, confirm, fails).errors|
          + (|insts| - |Positions(confirm, |insts|)|) == |insts|
  {
    PositionsSplit(confirm, fails, |insts|);
  }

  /** An accepted prompt ends either in a successful or in a failed terminate call. */
  lemma {:induction false} PositionsSplit(confirm: nat -> bool, fails: nat -> bool, n: nat)
    ensures |Positions(Terminated(confirm, fails), n)| + |Positions(Refused(confirm, fails), n)| == |Positions(confirm, n)|
  {
    if n > 0 {
      PositionsSplit(confirm, fails, n - 1);
      PositionsStep(confirm, fails, n);
    }
  }
}

=== FILE: cli.dfy ===
/** The command-line entry point `main`: regions in order, and in each region the enabled
    kinds in the order Elastic IPs, snapshots, instances, with a confirmation prompt before
    a live, unforced cleanup. */
module Cli {
  import opened Basics
  import opened Seqs
  import opened Records
  import opened Finders
  import opened Cleaners

  /** The command-line options. */
  datatype Options = Options(
    region: string,
    allRegions: bool,
    dryRun: bool,
    cleanEips: bool,
    cleanSnapshots: bool,
    cleanInstances: bool,
    days: int,
    force: bool)

  /** The options' defaults. */
  const Defaults: Options := Options("us-east-1", false, true, false, false, false, 30, false)

  /** The regions `main` scans: every region `describe_regions` lists when all regions are
      asked for (the configured one if that listing fails), else the configured one. */
  function RegionsToScan(o: Options, listing: Describe<string>): (regions: seq<string>)
    ensures !o.allRegions ==> regions == [o.region]
    ensures o.allRegions && listing.Failed? ==> regions == [o.region]
    ensures o.allRegions && listing.Listed? ==> regions == listing.items
  {
    if !o.allRegions then [o.region]
    else match listing
      case Failed => [o.region]
      case Listed(names) => names
  }

  predicate Enabled(o: Options, k: Kind) {
    match k
    case Eips => o.cleanEips
    case Snapshots => o.cleanSnapshots
    case Instances => o.cleanInstances
  }

  /** How many candidates the finder of kind `k` reports; `--days` serves both age limits. */
  function Found(o: Options, w: RegionWorld, k: Kind): nat {
    match k
    case Eips => |FindUnusedElasticIps(w.addresses)|
    case Snapshots => |FindOldSnapshots(w.snapshots, w.now, o.days)|
    case Instances => |FindStoppedInstancesCli(w.reservations, w.now, o.days)|
  }

  /** The top-level prompt is shown only for a live, unforced run. */
  predicate Asks(o: Options) {
    !o.dryRun && !o.force
  }

  /** The progress of `main`: the totals so far, the mutating calls so far, and the position
      of the next answer in the stream of prompt answers. */
  datatype Progress = Progress(totals: Counts, calls: seq<Call>, cursor: nat)

  /** What the cleaner of kind `k` did, and how many answers it consumed. */
  datatype KindRun = KindRun(cleaned: nat, calls: seq<Call>, prompts: nat)

  function CleanKind(o: Options, w: RegionWorld, k: Kind, answers: nat -> bool, cursor: nat): (r: KindRun)
    ensures o.dryRun ==> r.calls == [] && r.prompts == 0
    ensures o.dryRun && k != Instances ==> r.cleaned == Found(o, w, k)
    ensures k == Instances ==> r == KindRun(0, [], 0)
    ensures r.prompts == 0
    ensures !o.dryRun ==> r.cleaned == LiveSweep(o, w, k).cleaned && r.calls == LiveSweep(o, w, k).calls
    ensures forall c :: c in r.calls ==> c.Kind() == k
  {
    match k
    case Eips =>
      var s := CleanElasticIps(FindUnusedElasticIps(w.addresses), o.dryRun, w.releaseFails);
      KindRun(s.cleaned, s.calls, 0)
    case Snapshots =>
      var s := CleanSnapshots(FindOldSnapshots(w.snapshots, w.now, o.days), o.dryRun, w.deleteFails);
      KindRun(s.cleaned, s.calls, 0)
    case Instances =>
      var s := CleanStoppedInstances(FindStoppedInstancesCli(w.reservations, w.now, o.days), o.dryRun,
                                     (i: nat) => answers(cursor + i), w.terminateFails);
      KindRun(s.cleaned, s.calls, s.prompts)
  }

  /** What the cleaner of kind `k` does to a region in a live run: `clean_elastic_ips` and
      `clean_snapshots` over the finders' candidates. The instance finder reports nothing
      (`FindsNoInstances`), so the instance cleaner counts nothing and calls nothing. */
  function LiveSweep(o: Options, w: RegionWorld, k: Kind): Sweep {
    match k
    case Eips => CleanElasticIps(FindUnusedElasticIps(w.addresses), false, w.releaseFails)
    case Snapshots => CleanSnapshots(FindOldSnapshots(w.snapshots, w.now, o.days), false, w.deleteFails)
    case Instances => Sweep(0, [], [])
  }

  /** How much a live run adds to the total of kind `k` in one region when it cleans that
      kind, and the calls it then issues. */
  function Gain(o: Options, w: RegionWorld, k: Kind): nat {
    if Enabled(o, k) then LiveSweep(o, w, k).cleaned else 0
  }

  function EnabledCalls(o: Options, w: RegionWorld, k: Kind): seq<Call> {
    if Enabled(o, k) then LiveSweep(o, w, k).calls else []
  }

  /** A kind without candidates gains nothing and calls nothing. */
  lemma NothingFoundNothingGained(o: Options, w: RegionWorld, k: Kind)
    requires Found(o, w, k) == 0
    ensures LiveSweep(o, w, k).cleaned == 0 && LiveSweep(o, w, k).calls == []
  {
  }

  /** Every answer from position `cursor` on is yes. */
  ghost predicate AllYes(answers: nat -> bool, cursor: nat) {
    forall j :: cursor <= j ==> answers(j)
  }

  /** The gains of kind `k` over the first `m` kinds of a list. */
  function KindsGain(o: Options, w: RegionWorld, kinds: seq<Kind>, m: nat, k: Kind): nat
    requires m <= |kinds|
  {
    if m == 0 then 0
    else (if kinds[0] == k then Gain(o, w, k) else 0) + KindsGain(o, w, kinds[1..], m - 1, k)
  }

  /** The calls of the enabled kinds among the first `m` kinds of a list, one kind after
      the other. */
  function KindsCalls(o: Options, w: RegionWorld, kinds: seq<Kind>, m: nat): seq<Call>
    requires m <= |kinds|
  {
    if m == 0 then [] else EnabledCalls(o, w, kinds[0]) + KindsCalls(o, w, kinds[1..], m - 1)
  }

  /** The progress after a live run has cleaned kind `k` in full, with the answer stream
      at `cursor`. */
  function Advance(o: Options, w: RegionWorld, k: Kind, p: Progress, cursor: nat): Progress {
    Progress(p.totals.Add(k, Gain(o, w, k)), p.calls + EnabledCalls(o, w, k), cursor)
  }

  /** The body of the region loop, over the kinds still to go. A declined prompt is the
      source's `continue`: it abandons the rest of the region's kinds, not just this one. */
  function KindsLoop(o: Options, w: RegionWorld, kinds: seq<Kind>, answers: nat -> bool, p: Progress): (r: Progress)
    ensures o.dryRun ==> r.calls == p.calls && r.cursor == p.cursor
    ensures o.force ==> r.cursor == p.cursor
    ensures r.totals.instances == p.totals.instances
    ensures forall c :: c in r.calls ==> c in p.calls || c.Kind() != Instances
    ensures (forall j :: 0 <= j < |kinds| && Enabled(o, kinds[j]) ==> Found(o, w, kinds[j]) == 0) ==> r == p
    decreases |kinds|
  {
    if |kinds| == 0 then p
    else
      var k := kinds[0];
      assert forall j :: 1 <= j < |kinds| ==> kinds[1..][j - 1] == kinds[j];
      if !Enabled(o, k) || Found(o, w, k) == 0 then KindsLoop(o, w, kinds[1..], answers, p)
      else if Asks(o) && !answers(p.cursor) then p.(cursor := p.cursor + 1)
      else
        var cursor := if Asks(o) then p.cursor + 1 else p.cursor;
        var s := CleanKind(o, w, k, answers, cursor);
        KindsLoop(o, w, kinds[1..], answers, Progress(p.totals.Add(k, s.cleaned), p.calls + s.calls, cursor + s.prompts))
  }

  /** In a dry run every enabled kind adds its number of candidates to its total. */
  lemma {:induction false} DryRunCountsCandidates(o: Options, w: RegionWorld, kinds: seq<Kind>, answers: nat -> bool, p: Progress)
    requires o.dryRun
    ensures forall k :: KindsLoop(o, w, kinds, answers, p).totals.Get(k) == p.totals.Get(k) + KindsFound(o, w, kinds, k)
    decreases |kinds|
  {
    if |kinds| > 0 {
      var k := kinds[0];
      if !Enabled(o, k) || Found(o, w, k) == 0 {
        DryRunCountsCandidates(o, w, kinds[1..], answers, p);
      } else {
        var s := CleanKind(o, w, k, answers, p.cursor);
        var q := Progress(p.totals.Add(k, s.cleaned), p.calls + s.calls, p.cursor + s.prompts);
        assert KindsLoop(o, w, kinds, answers, p) == KindsLoop(o, w, kinds[1..], answers, q);
        DryRunCountsCandidates(o, w, kinds[1..], answers, q);
        if k == Instances {
          FindsNoInstances(o, w);
        }
      }
    }
  }

  /** One step of a live pass: either the prompt for the first kind is declined and the
      pass ends, or the first kind is cleaned in full (a disabled kind or one without
      candidates adds nothing) and the pass goes on with the rest. */
  lemma LiveStep(o: Options, w: RegionWorld, kinds: seq<Kind>, answers: nat -> bool, p: Progress)
    returns (stop: bool, cursor: nat)
    requires !o.dryRun && |kinds| > 0
    ensures stop ==> Asks(o) && !answers(p.cursor) && KindsLoop(o, w, kinds, answers, p) == p.(cursor := p.cursor + 1)
    ensures !Enabled(o, kinds[0]) || Found(o, w, kinds[0]) == 0 ==> !stop && cursor == p.cursor
    ensures Enabled(o, kinds[0]) && Found(o, w, kinds[0]) > 0 && Asks(o) ==> (stop <==> !answers(p.cursor))
    ensures !stop ==> cursor == p.cursor + (if Enabled(o, kinds[0]) && Found(o, w, kinds[0]) > 0 && Asks(o) then 1 else 0)
    ensures !stop ==> (p.cursor <= cursor
      && KindsLoop(o, w, kinds, answers, p) == KindsLoop(o, w, kinds[1..], answers, Advance(o, w, kinds[0], p, cursor)))
  {
    var k := kinds[0];
    if !Enabled(o, k) || Found(o, w, k) == 0 {
      stop, cursor := false, p.cursor;
      if Enabled(o, k) {
        NothingFoundNothingGained(o, w, k);
      }
      assert Advance(o, w, k, p, cursor) == p;
    } else if Asks(o) && !answers(p.cursor) {
      stop, cursor := true, p.cursor;
    } else {
      var c := if Asks(o) then p.cursor + 1 else p.cursor;
      var s := CleanKind(o, w, k, answers, c);
      stop, cursor := false, c + s.prompts;
    }
  }

  /** A live pass over a list of kinds cleans some prefix of the list completely and stops
      there (at a declined prompt); with `--force`, or when every prompt is accepted, the
      prefix is the whole list. */
  lemma {:induction false} LiveRunsAPrefix(o: Options, w: RegionWorld, kinds: seq<Kind>, answers: nat -> bool, p: Progress)
    returns (m: nat)
    requires !o.dryRun
    ensures m <= |kinds|
    ensures o.force || AllYes(answers, p.cursor) ==> m == |kinds|
    ensures var r := KindsLoop(o, w, kinds, answers, p);
      && p.cursor <= r.cursor
      && (forall k :: r.totals.Get(k) == p.totals.Get(k) + KindsGain(o, w, kinds, m, k))
      && r.calls == p.calls + KindsCalls(o, w, kinds, m)
    decreases |kinds|
  {
    if |kinds| == 0 {
      m := 0;
    } else {
      var stop, cursor := LiveStep(o, w, kinds, answers, p);
      if stop {
        m := 0;
      } else {
        var q := Advance(o, w, kinds[0], p, cursor);
        var m' := LiveRunsAPrefix(o, w, kinds[1..], answers, q);
        m := m' + 1;
        assert AllYes(answers, p.cursor) ==> AllYes(answers, q.cursor);
        AdvanceThenRest(o, w, kinds, p, cursor, KindsLoop(o, w, kinds[1..], answers, q), m');
      }
    }
  }

  /** Cleaning the first kind in full and then a prefix of the rest gains what the longer
      prefix of the whole list gains. */
  lemma {:induction false} AdvanceThenRest(o: Options, w: RegionWorld, kinds: seq<Kind>, p: Progress, cursor: nat,
                                           r: Progress, m: nat)
    requires 0 < |kinds| && m < |kinds|
    requires var q := Advance(o, w, kinds[0], p, cursor);
      && (forall k :: r.totals.Get(k) == q.totals.Get(k) + KindsGain(o, w, kinds[1..], m, k))
      && r.calls == q.calls + KindsCalls(o, w, kinds[1..], m)
    ensures forall k :: r.totals.Get(k) == p.totals.Get(k) + KindsGain(o, w, kinds, m + 1, k)
    ensures r.calls == p.calls + KindsCalls(o, w, kinds, m + 1)
  {
    var q := Advance(o, w, kinds[0], p, cursor);
    Regroup(p.calls, EnabledCalls(o, w, kinds[0]), KindsCalls(o, w, kinds[1..], m));
    forall k ensures r.totals.Get(k) == p.totals.Get(k) + KindsGain(o, w, kinds, m + 1, k) {
      assert q.totals.Get(k) == p.totals.Get(k) + (if kinds[0] == k then Gain(o, w, k) else 0);
    }
  }

  /** The command-line instance finder reports nothing, so `Found` is zero for instances. */
  lemma FindsNoInstances(o: Options, w: RegionWorld)
    ensures Found(o, w, Instances) == 0
  {
  }

  /** The number of candidates kind `k` contributes over a list of kinds of one region. */
  function KindsFound(o: Options, w: RegionWorld, kinds: seq<Kind>, k: Kind): nat {
    if |kinds| == 0 then 0
    else (if kinds[0] == k && Enabled(o, k) then Found(o, w, k) else 0) + KindsFound(o, w, kinds[1..], k)
  }

  const KindOrder: seq<Kind> := [Eips, Snapshots, Instances]

  /** One region's pass of `main`. */
  function RegionPass(o: Options, w: RegionWorld, answers: nat -> bool, p: Progress): (r: Progress)
    ensures o.dryRun ==> r.calls == p.calls && r.cursor == p.cursor
    ensures o.dryRun ==> forall k :: r.totals.Get(k) == p.totals.Get(k) + (if Enabled(o, k) then Found(o, w, k) else 0)
    ensures o.force ==> r.cursor == p.cursor
    ensures r.totals.instances == p.totals.instances
    ensures forall c :: c in r.calls ==> c in p.calls || c.Kind() != Instances
  {
    var r := KindsLoop(o, w, KindOrder, answers, p);
    KindOrderFound(o, w);
    assert o.dryRun ==> forall k :: r.totals.Get(k) == p.totals.Get(k) + KindsFound(o, w, KindOrder, k) by {
      if o.dryRun {
        DryRunCountsCandidates(o, w, KindOrder, answers, p);
      }
    }
    r
  }

  lemma KindOrderFound(o: Options, w: RegionWorld)
    ensures forall k :: KindsFound(o, w, KindOrder, k) == if Enabled(o, k) then Found(o, w, k) else 0
  {
    forall k ensures KindsFound(o, w, KindOrder, k) == if Enabled(o, k) then Found(o, w, k) else 0 {
      var ks := KindOrder;
      assert ks[1..] == [Snapshots, Instances] && ks[1..][1..] == [Instances] && ks[1..][1..][1..] == [];
      assert KindsFound(o, w, ks[1..][1..][1..], k) == 0;
      assert KindsFound(o, w, ks[1..][1..], k) == if k == Instances && Enabled(o, k) then Found(o, w, k) else 0;
      assert KindsFound(o, w, ks[1..], k) == if k != Eips && Enabled(o, k) then Found(o, w, k) else 0;
    }
  }

  /** A live pass over one region: each kind's total grows either by nothing or by what
      that kind's cleaner counts. */
  lemma LiveRegionPass(o: Options, w: RegionWorld, answers: nat -> bool, p: Progress)
    requires !o.dryRun
    ensures var r := RegionPass(o, w, answers, p);
      forall k :: r.totals.Get(k) == p.totals.Get(k) || r.totals.Get(k) == p.totals.Get(k) + Gain(o, w, k)
  {
    var m := LiveRunsAPrefix(o, w, KindOrder, answers, p);
    KindOrderGains(o, w, m);
  }

  /** With `--force`, or when every prompt is accepted, a live pass cleans each enabled kind
      of the region in full, addresses first and snapshots second. */
  lemma AcceptedRegionPass(o: Options, w: RegionWorld, answers: nat -> bool, p: Progress)
    requires !o.dryRun && (o.force || AllYes(answers, p.cursor))
    ensures var r := RegionPass(o, w, answers, p);
      && p.cursor <= r.cursor
      && (forall k :: r.totals.Get(k) == p.totals.Get(k) + Gain(o, w, k))
      && r.calls == p.calls + RegionCalls(o, w)
  {
    var m := LiveRunsAPrefix(o, w, KindOrder, answers, p);
    KindOrderGains(o, w, m);
  }

  /** The gains and calls of the first `m` kinds of `KindOrder`. */
  lemma KindOrderGains(o: Options, w: RegionWorld, m: nat)
    requires m <= 3
    ensures forall k :: KindsGain(o, w, KindOrder, m, k) == 0 || KindsGain(o, w, KindOrder, m, k) == Gain(o, w, k)
    ensures m == 3 ==> ((forall k :: KindsGain(o, w, KindOrder, m, k) == Gain(o, w, k))
      && KindsCalls(o, w, KindOrder, m) == RegionCalls(o, w))
  {
    var ks := KindOrder;
    assert ks[1..] == [Snapshots, Instances] && ks[1..][1..] == [Instances];
    forall k ensures KindsGain(o, w, ks, m, k) == 0 || KindsGain(o, w, ks, m, k) == Gain(o, w, k) {
      var gi := if k == Instances then Gain(o, w, k) else 0;
      var gs := if k == Snapshots then Gain(o, w, k) else 0;
      var ge := if k == Eips then Gain(o, w, k) else 0;
      assert KindsGain(o, w, [Instances], 1, k) == gi + KindsGain(o, w, [Instances][1..], 0, k);
      assert KindsGain(o, w, ks[1..], 1, k) == gs + KindsGain(o, w, ks[1..][1..], 0, k);
      assert KindsGain(o, w, ks[1..], 2, k) == gs + gi;
      assert KindsGain(o, w, ks, 1, k) == ge + KindsGain(o, w, ks[1..], 0, k);
      assert KindsGain(o, w, ks, 2, k) == ge + gs;
      assert KindsGain(o, w, ks, 3, k) == ge + gs + gi;
    }
    if m == 3 {
      assert KindsCalls(o, w, ks[1..][1..], 1) == EnabledCalls(o, w, Instances) + [];
    }
  }

  /** The calls a region's live pass issues when it cleans every enabled kind. */
  function RegionCalls(o: Options, w: RegionWorld): seq<Call> {
    EnabledCalls(o, w, Eips) + (EnabledCalls(o, w, Snapshots) + EnabledCalls(o, w, Instances))
  }

  /** A declined Elastic IP prompt skips the region's snapshots and instances too: the pass
      ends with nothing cleaned and only the prompt's answer consumed. */
  lemma DeclineSkipsRestOfRegion(o: Options, w: RegionWorld, answers: nat -> bool, p: Progress)
    requires o.cleanEips && Found(o, w, Eips) > 0 && Asks(o) && !answers(p.cursor)
    ensures RegionPass(o, w, answers, p) == p.(cursor := p.cursor + 1)
  {
  }

  /** The region loop of `main`, from region `i` on; `worlds(i)` is what the `i`-th region's
      pass observes. */
  function RegionsLoop(o: Options, n: nat, i: nat, worlds: nat -> RegionWorld, answers: nat -> bool, p: Progress): (r: Progress)
    requires i <= n
    ensures o.dryRun ==> r.calls == p.calls && r.cursor == p.cursor
    ensures o.dryRun ==> forall k :: r.totals.Get(k) == p.totals.Get(k) + FoundOver(o, worlds, k, i, n)
    ensures o.force ==> r.cursor == p.cursor
    ensures r.totals.instances == p.totals.instances
    ensures forall c :: c in r.calls ==> c in p.calls || c.Kind() != Instances
    decreases n - i
  {
    if i == n then p
    else RegionsLoop(o, n, i + 1, worlds, answers, RegionPass(o, worlds(i), answers, p))
  }

  /** A declined prompt abandons only the current region: the loop goes on with the next
      region, one answer further down the stream. */
  lemma DeclineMovesToNextRegion(o: Options, n: nat, i: nat, worlds: nat -> RegionWorld, answers: nat -> bool, p: Progress)
    requires i < n && o.cleanEips && Found(o, worlds(i), Eips) > 0 && Asks(o) && !answers(p.cursor)
    ensures RegionsLoop(o, n, i, worlds, answers, p) == RegionsLoop(o, n, i + 1, worlds, answers, p.(cursor := p.cursor + 1))
  {
    DeclineSkipsRestOfRegion(o, worlds(i), answers, p);
  }

  /** The live gains of kind `k` over regions `i` to `n - 1`. */
  function GainOver(o: Options, worlds: nat -> RegionWorld, k: Kind, i: nat, n: nat): nat
    requires i <= n
    decreases n - i
  {
    if i == n then 0 else Gain(o, worlds(i), k) + GainOver(o, worlds, k, i + 1, n)
  }

  /** The calls of complete live passes over regions `i` to `n - 1`, region by region. */
  function CallsOver(o: Options, worlds: nat -> RegionWorld, i: nat, n: nat): seq<Call>
    requires i <= n
    decreases n - i
  {
    if i == n then [] else RegionCalls(o, worlds(i)) + CallsOver(o, worlds, i + 1, n)
  }

  /** Over the remaining regions of a live run, each total grows by at most the gains of
      its kind. */
  lemma {:induction false} LiveRegionsBound(o: Options, n: nat, i: nat, worlds: nat -> RegionWorld, answers: nat -> bool, p: Progress)
    requires i <= n && !o.dryRun
    ensures var r := RegionsLoop(o, n, i, worlds, answers, p);
      forall k :: p.totals.Get(k) <= r.totals.Get(k) <= p.totals.Get(k) + GainOver(o, worlds, k, i, n)
    decreases n - i
  {
    if i < n {
      var q := RegionPass(o, worlds(i), answers, p);
      LiveRegionPass(o, worlds(i), answers, p);
      LiveRegionsBound(o, n, i + 1, worlds, answers, q);
    }
  }

  /** With `--force`, or when every prompt is accepted, the remaining regions of a live run
      are cleaned in full: each total grows by the gains of its kind. */
  lemma {:induction false} AcceptedRegionsTotals(o: Options, n: nat, i: nat, worlds: nat -> RegionWorld, answers: nat -> bool, p: Progress)
    requires i <= n && !o.dryRun && (o.force || AllYes(answers, p.cursor))
    ensures var r := RegionsLoop(o, n, i, worlds, answers, p);
      forall k :: r.totals.Get(k) == p.totals.Get(k) + GainOver(o, worlds, k, i, n)
    decreases n - i
  {
    if i < n {
      var q := RegionPass(o, worlds(i), answers, p);
      AcceptedRegionPass(o, worlds(i), answers, p);
      assert AllYes(answers, p.cursor) ==> AllYes(answers, q.cursor);
      AcceptedRegionsTotals(o, n, i + 1, worlds, answers, q);
    }
  }

  /** ... and the calls are the regions' calls, one region after the other. */
  lemma {:induction false} AcceptedRegionsCalls(o: Options, n: nat, i: nat, worlds: nat -> RegionWorld, answers: nat -> bool, p: Progress)
    requires i <= n && !o.dryRun && (o.force || AllYes(answers, p.cursor))
    ensures RegionsLoop(o, n, i, worlds, answers, p).calls == p.calls + CallsOver(o, worlds, i, n)
    decreases n - i
  {
    if i < n {
      var q := RegionPass(o, worlds(i), answers, p);
      AcceptedRegionPass(o, worlds(i), answers, p);
      assert AllYes(answers, p.cursor) ==> AllYes(answers, q.cursor);
      assert RegionsLoop(o, n, i, worlds, answers, p) == RegionsLoop(o, n, i + 1, worlds, answers, q);
      AcceptedRegionsCalls(o, n, i + 1, worlds, answers, q);
      Regroup(p.calls, RegionCalls(o, worlds(i)), CallsOver(o, worlds, i + 1, n));
    }
  }

  /** The number of candidates of kind `k` over regions `i` to `n - 1`, zero when `k` is
      not enabled. */
  function FoundOver(o: Options, worlds: nat -> RegionWorld, k: Kind, i: nat, n: nat): nat
    requires i <= n
    decreases n - i
  {
    if i == n then 0 else (if Enabled(o, k) then Found(o, worlds(i), k) else 0) + FoundOver(o, worlds, k, i + 1, n)
  }

  /** With no option given, `main` is a dry run of no kind: it reports zero everywhere,
      asks nothing and calls nothing. */
  lemma DefaultsDoNothing(listing: Describe<string>, worlds: nat -> RegionWorld, answers: nat -> bool)
    ensures Main(Defaults, listing, worlds, answers) == Summary(NoneCleaned, [], 0)
  {
    var s := Main(Defaults, listing, worlds, answers);
    var n := |RegionsToScan(Defaults, listing)|;
    forall k ensures FoundOver(Defaults, worlds, k, 0, n) == 0 {
      NothingEnabledNothingFound(Defaults, worlds, k, 0, n);
    }
    assert s.totals == Counts(s.totals.Get(Eips), s.totals.Get(Snapshots), s.totals.Get(Instances));
  }

  lemma {:induction false} NothingEnabledNothingFound(o: Options, worlds: nat -> RegionWorld, k: Kind, i: nat, n: nat)
    requires i <= n && !Enabled(o, k)
    ensures FoundOver(o, worlds, k, i, n) == 0
    decreases n - i
  {
    if i < n {
      NothingEnabledNothingFound(o, worlds, k, i + 1, n);
    }
  }

  /** What `main` reports: the per-kind totals, the mutating calls it issued, and how many
      prompt answers it consumed. */
  datatype Summary = Summary(totals: Counts, calls: seq<Call>, prompts: nat)

  /** `main`. A dry run issues no call, asks nothing and totals the candidates; `--force`
      asks nothing; and, since the instance finder finds nothing, no instance is ever
      terminated or counted. */
  function Main(o: Options, listing: Describe<string>, worlds: nat -> RegionWorld, answers: nat -> bool): (s: Summary)
    ensures o.dryRun ==> s.calls == [] && s.prompts == 0
    ensures o.dryRun ==> forall k :: s.totals.Get(k) == FoundOver(o, worlds, k, 0, |RegionsToScan(o, listing)|)
    ensures o.force ==> s.prompts == 0
    ensures s.totals.instances == 0
    ensures forall c :: c in s.calls ==> c.Kind() != Instances
  {
    var regions := RegionsToScan(o, listing);
    var r := RegionsLoop(o, |regions|, 0, worlds, answers, Progress(NoneCleaned, [], 0));
    Summary(r.totals, r.calls, r.cursor)
  }

  /** A live `main` counts at most what complete passes over every scanned region would;
      with `--force`, or when every prompt is accepted, exactly that, and it issues the
      regions' calls region by region. */
  lemma LiveMain(o: Options, listing: Describe<string>, worlds: nat -> RegionWorld, answers: nat -> bool)
    requires !o.dryRun
    ensures var s := Main(o, listing, worlds, answers);
      forall k :: s.totals.Get(k) <= GainOver(o, worlds, k, 0, |RegionsToScan(o, listing)|)
    ensures var s := Main(o, listing, worlds, answers);
      o.force || AllYes(answers, 0) ==>
        && (forall k :: s.totals.Get(k) == GainOver(o, worlds, k, 0, |RegionsToScan(o, listing)|))
        && s.calls == CallsOver(o, worlds, 0, |RegionsToScan(o, listing)|)
  {
    var n := |RegionsToScan(o, listing)|;
    var p := Progress(NoneCleaned, [], 0);
    LiveRegionsBound(o, n, 0, worlds, answers, p);
    if o.force || AllYes(answers, 0) {
      AcceptedRegionsTotals(o, n, 0, worlds, answers, p);
      AcceptedRegionsCalls(o, n, 0, worlds, answers, p);
    }
  }
}

=== FILE: finders.dfy ===
/** The finders: filters over a describe listing. The Elastic IP and snapshot finders and
    the tag lookup are the same code in both entry points; the instance finders differ. */
module Finders {
  import opened Basics
  import opened Seqs
  import opened Text
  import opened Records

  const DefaultDomain: string := "classic"
  const DefaultDescription: string := "No description"
  const DefaultName: string := "No Name"
  const StoppedWord: string := "stopped"

  // ----- Elastic IPs -----

  predicate IsUnattached(a: RawAddress) {
    a.instanceId.None? && a.networkInterfaceId.None?
  }

  function EipOf(a: RawAddress): Eip {
    Eip(a.allocationId, a.publicIp, a.domain.ValueOr(DefaultDomain))
  }

  /** `find_unused_elastic_ips`: the addresses with neither an instance nor a network
      interface attached, with the domain defaulting to `'classic'`. */
  function FindUnusedElasticIps(resp: Describe<RawAddress>): (r: seq<Eip>)
    ensures resp.Failed? ==> r == []
    ensures resp.Listed? ==> |r| <= |resp.items|
    ensures resp.Listed? ==>
      forall i :: 0 <= i < |resp.items| && resp.items[i].instanceId.None? && resp.items[i].networkInterfaceId.None? ==>
        Eip(resp.items[i].allocationId, resp.items[i].publicIp, resp.items[i].domain.ValueOr("classic")) in r
    ensures forall e :: e in r ==>
      resp.Listed? && exists i :: 0 <= i < |resp.items| && IsUnattached(resp.items[i]) && e == EipOf(resp.items[i])
  {
    match resp
    case Failed => []
    case Listed(addresses) => Select(IsUnattached, EipOf, addresses)
  }

  /** An address with either attachment never becomes a candidate, and the candidates come
      out in listing order: the result over a concatenated listing is the concatenation. */
  lemma UnusedEipsInOrder(xs: seq<RawAddress>, ys: seq<RawAddress>)
    ensures FindUnusedElasticIps(Listed(xs + ys)) == FindUnusedElasticIps(Listed(xs)) + FindUnusedElasticIps(Listed(ys))
  {
    SelectAppend(IsUnattached, EipOf, xs, ys);
  }

  /** A single listed address is a candidate exactly when it is unattached. */
  lemma UnusedEipSingle(a: RawAddress)
    ensures FindUnusedElasticIps(Listed([a])) == if IsUnattached(a) then [EipOf(a)] else []
  {
    SelectSingle(IsUnattached, EipOf, a);
  }

  // ----- Snapshots -----

  function SnapshotOf(s: RawSnapshot): Snapshot {
    Snapshot(s.snapshotId, s.description.ValueOr(DefaultDescription), s.startTime, s.volumeSize)
  }

  /** `find_old_snapshots(days)`: the snapshots started strictly before `now - days`, and
      none at all when that cutoff is outside the range of `datetime`. */
  function FindOldSnapshots(resp: Describe<RawSnapshot>, now: int, days: int): (r: seq<Snapshot>)
    ensures resp.Failed? || Cutoff(now, days).None? ==> r == []
    ensures forall s :: s in r ==> s.startTime < now - days * 86400
    ensures resp.Listed? && Cutoff(now, days).Some? ==>
      forall i :: 0 <= i < |resp.items| && resp.items[i].startTime < now - days * 86400 ==>
        Snapshot(resp.items[i].snapshotId, resp.items[i].description.ValueOr("No description"),
                 resp.items[i].startTime, resp.items[i].volumeSize) in r
    ensures forall s :: s in r ==>
      resp.Listed? && exists i :: 0 <= i < |resp.items| && s == SnapshotOf(resp.items[i])
  {
    match resp
    case Failed => []
    case Listed(snapshots) =>
      match Cutoff(now, days)
      case None => []
      case Some(cutoff) => Select((s: RawSnapshot) => s.startTime < cutoff, SnapshotOf, snapshots)
  }

  /** A snapshot started exactly at the cutoff instant is not a candidate; one a second
      earlier is. */
  lemma SnapshotBoundary(s: RawSnapshot, now: int, days: int)
    ensures Cutoff(now, days) == Some(s.startTime) ==> FindOldSnapshots(Listed([s]), now, days) == []
    ensures Cutoff(now, days) == Some(s.startTime + 1) ==> FindOldSnapshots(Listed([s]), now, days) == [SnapshotOf(s)]
  {
    if Cutoff(now, days).Some? {
      SelectSingle((x: RawSnapshot) => x.startTime < Cutoff(now, days).value, SnapshotOf, s);
    }
  }

  /** A single listed snapshot is reported once if it started before the cutoff, and not
      at all otherwise. */
  lemma SnapshotSingle(s: RawSnapshot, now: int, days: int)
    ensures FindOldSnapshots(Listed([s]), now, days)
         == if Cutoff(now, days).Some? && s.startTime < Cutoff(now, days).value then [SnapshotOf(s)] else []
  {
    if Cutoff(now, days).Some? {
      SelectSingle((x: RawSnapshot) => x.startTime < Cutoff(now, days).value, SnapshotOf, s);
    }
  }

  /** The old snapshots come out in listing order. */
  lemma OldSnapshotsInOrder(xs: seq<RawSnapshot>, ys: seq<RawSnapshot>, now: int, days: int)
    ensures FindOldSnapshots(Listed(xs + ys), now, days)
         == FindOldSnapshots(Listed(xs), now, days) + FindOldSnapshots(Listed(ys), now, days)
  {
    if Cutoff(now, days).Some? {
      SelectAppend((s: RawSnapshot) => s.startTime < Cutoff(now, days).value, SnapshotOf, xs, ys);
    }
  }

  // ----- Instance names -----

  /** `_get_instance_name`: the value of the first tag keyed `'Name'`, else `'No Name'`. */
  function InstanceName(tags: Option<seq<Tag>>): (name: string)
    ensures (forall i :: 0 <= i < |tags.ValueOr([])| ==> tags.ValueOr([])[i].key != "Name") ==> name == "No Name"
    ensures forall i :: 0 <= i < |tags.ValueOr([])| && tags.ValueOr([])[i].key == "Name"
                        && (forall j :: 0 <= j < i ==> tags.ValueOr([])[j].key != "Name") ==>
                        name == tags.ValueOr([])[i].value
  {
    FirstName(tags.ValueOr([]))
  }

  function FirstName(tags: seq<Tag>): (name: string)
    ensures (forall i :: 0 <= i < |tags| ==> tags[i].key != "Name") ==> name == DefaultName
    ensures forall i :: 0 <= i < |tags| && tags[i].key == "Name" && (forall j :: 0 <= j < i ==> tags[j].key != "Name") ==>
                        name == tags[i].value
  {
    if |tags| == 0 then DefaultName
    else if tags[0].key == "Name" then tags[0].value
    else
      var rest := FirstName(tags[1..]);
      assert forall i :: 1 <= i < |tags| ==> tags[i] == tags[1..][i - 1];
      rest
  }

  function StoppedOf(inst: RawInstance): StoppedInstance {
    StoppedInstance(inst.instanceId, inst.instanceType, inst.launchTime, inst.stateName, InstanceName(inst.tags))
  }

  // ----- Stopped instances, command-line version -----

  /** The inner loop of the command-line finder as written: it walks the CHARACTERS of the
      state-transition reason and asks whether `'stopped'` occurs in each lower-cased
      character, appending the instance once per hit when it was launched before the cutoff.
      A one-character string cannot contain a seven-character word, so nothing is appended. */
  function ScanReasonChars(inst: RawInstance, chars: string, cutoff: int): (r: seq<StoppedInstance>)
    ensures r == []
  {
    if |chars| == 0 then []
    else
      var transition := [chars[0]];
      ShorterContainsNothingLonger(Lower(transition), StoppedWord);
      var hit := Contains(Lower(transition), StoppedWord) && inst.launchTime < cutoff;
      (if hit then [StoppedOf(inst)] else []) + ScanReasonChars(inst, chars[1..], cutoff)
  }

  function ScanInstancesCli(insts: seq<RawInstance>, cutoff: int): (r: seq<StoppedInstance>)
    ensures r == []
  {
    if |insts| == 0 then []
    else ScanReasonChars(insts[0], insts[0].stateTransitionReason.ValueOr(""), cutoff) + ScanInstancesCli(insts[1..], cutoff)
  }

  function ScanReservationsCli(rs: seq<Reservation>, cutoff: int): (r: seq<StoppedInstance>)
    ensures r == []
  {
    if |rs| == 0 then []
    else ScanInstancesCli(rs[0].instances, cutoff) + ScanReservationsCli(rs[1..], cutoff)
  }

  /** `find_stopped_instances` of the command-line tool, as written: whatever the listing,
      the clock or the threshold, it finds nothing. */
  function FindStoppedInstancesCli(resp: Describe<Reservation>, now: int, days: int): (r: seq<StoppedInstance>)
    ensures r == []
  {
    match resp
    case Failed => []
    case Listed(rs) =>
      match Cutoff(now, days)
      case None => []
      case Some(cutoff) => ScanReservationsCli(rs, cutoff)
  }

  // ----- Stopped instances, scheduled-function version -----

  /** Every instance of every reservation, reservation by reservation. */
  function AllInstances(rs: seq<Reservation>): (r: seq<RawInstance>)
    ensures forall i, j :: 0 <= i < |rs| && 0 <= j < |rs[i].instances| ==> rs[i].instances[j] in r
    ensures forall x :: x in r ==> exists i :: 0 <= i < |rs| && x in rs[i].instances
  {
    if |rs| == 0 then []
    else
      var rest := AllInstances(rs[1..]);
      assert forall i :: 1 <= i < |rs| ==> rs[i] == rs[1..][i - 1];
      rs[0].instances + rest
  }

  lemma {:induction false} AllInstancesAppend(xs: seq<Reservation>, ys: seq<Reservation>)
    ensures AllInstances(xs + ys) == AllInstances(xs) + AllInstances(ys)
  {
    if |xs| == 0 {
      assert xs + ys == ys;
    } else {
      assert (xs + ys)[1..] == xs[1..] + ys;
      AllInstancesAppend(xs[1..], ys);
    }
  }

  /** `find_stopped_instances` of the scheduled function: every instance of every
      reservation launched strictly before the cutoff. The state is copied, never checked:
      the listing's server-side filter is the only state test. */
  function FindStoppedInstances(resp: Describe<Reservation>, now: int, days: int): (r: seq<StoppedInstance>)
    ensures resp.Failed? || Cutoff(now, days).None? ==> r == []
    ensures forall x :: x in r ==> x.launchTime < now - days * 86400
    ensures resp.Listed? && Cutoff(now, days).Some? ==>
      forall i, j :: 0 <= i < |resp.items| && 0 <= j < |resp.items[i].instances|
                     && resp.items[i].instances[j].launchTime < now - days * 86400 ==>
        StoppedInstance(resp.items[i].instances[j].instanceId, resp.items[i].instances[j].instanceType,
                        resp.items[i].instances[j].launchTime, resp.items[i].instances[j].stateName,
                        InstanceName(resp.items[i].instances[j].tags)) in r
    ensures forall x :: x in r ==>
      resp.Listed? && exists inst :: inst in AllInstances(resp.items) && x == StoppedOf(inst)
  {
    match resp
    case Failed => []
    case Listed(rs) =>
      if Cutoff(now, days).None? then [] else
      var cutoff := Cutoff(now, days).value;
      var all := AllInstances(rs);
      var r := Select((inst: RawInstance) => inst.launchTime < cutoff, StoppedOf, all);
      assert forall i, j :: 0 <= i < |rs| && 0 <= j < |rs[i].instances| && rs[i].instances[j].launchTime < cutoff ==>
        StoppedOf(rs[i].instances[j]) in r by {
        forall i, j | 0 <= i < |rs| && 0 <= j < |rs[i].instances| && rs[i].instances[j].launchTime < cutoff
          ensures StoppedOf(rs[i].instances[j]) in r
        {
          var inst := rs[i].instances[j];
          assert inst in all;
          var k :| 0 <= k < |all| && all[k] == inst;
        }
      }
      r
  }

  /** The candidates come out reservation by reservation, in listing order. */
  lemma StoppedInstancesInOrder(xs: seq<Reservation>, ys: seq<Reservation>, now: int, days: int)
    ensures FindStoppedInstances(Listed(xs + ys), now, days)
         == FindStoppedInstances(Listed(xs), now, days) + FindStoppedInstances(Listed(ys), now, days)
  {
    AllInstancesAppend(xs, ys);
    if Cutoff(now, days).Some? {
      SelectAppend((inst: RawInstance) => inst.launchTime < Cutoff(now, days).value, StoppedOf, AllInstances(xs), AllInstances(ys));
    }
  }

  /** A single instance in a single reservation is reported once if it was launched before
      the cutoff, and not at all otherwise. */
  lemma StoppedInstanceSingle(x: RawInstance, now: int, days: int)
    ensures FindStoppedInstances(Listed([Reservation([x])]), now, days)
         == if Cutoff(now, days).Some? && x.launchTime < Cutoff(now, days).value then [StoppedOf(x)] else []
  {
    assert [Reservation([x])][1..] == [];
    assert AllInstances([Reservation([x])]) == [x];
    if Cutoff(now, days).Some? {
      SelectSingle((inst: RawInstance) => inst.launchTime < Cutoff(now, days).value, StoppedOf, x);
    }
  }

  /** A negative age limit of ten thousand years puts the cutoff after year 9999: the
      subtraction overflows inside the finders' `try`, so neither age-based finder reports
      anything, whatever the listing. */
  lemma NegativeAgeFindsNothing(snapshots: Describe<RawSnapshot>, reservations: Describe<Reservation>, now: int, days: int)
    requires MinDatetime <= now <= MaxDatetime && days <= -3652059
    ensures FindOldSnapshots(snapshots, now, days) == []
    ensures FindStoppedInstances(reservations, now, days) == []
  {
  }
}

=== FILE: lambda_cleaner.dfy ===
/** The scheduled-function entry point: `cleanup_resources` per region, and
    `lambda_handler`, which reads the event, runs every region and aggregates. */
module LambdaCleaner {
  import opened Basics
  import opened Seqs
  import opened Records
  import opened Finders
  import opened Cleaners

  const DefaultDryRun: bool := true
  const DefaultSnapshotDays: int := 30
  const DefaultInstanceDays: int := 7

  /** The configuration dictionary: each key may be missing. */
  datatype Settings = Settings(
    dryRun: Option<bool>,
    cleanEips: Option<bool>,
    cleanSnapshots: Option<bool>,
    cleanInstances: Option<bool>,
    snapshotDays: Option<int>,
    instanceDays: Option<int>)
  {
    predicate DryRun() { dryRun.ValueOr(DefaultDryRun) }

    predicate Enabled(k: Kind) {
      match k
      case Eips => cleanEips.ValueOr(false)
      case Snapshots => cleanSnapshots.ValueOr(false)
      case Instances => cleanInstances.ValueOr(false)
    }
  }

  /** One region's `results` dictionary. */
  datatype CleanupResult = CleanupResult(region: string, timestamp: int, cleaned: Counts, errors: seq<ItemError>)

  /** A region's result together with the mutating calls its pass issued. */
  datatype RegionCleanup = RegionCleanup(result: CleanupResult, calls: seq<Call>)

  /** The candidate lists of a region, with the configured (or default) age limits. */
  function EipCandidates(w: RegionWorld): seq<Eip> {
    FindUnusedElasticIps(w.addresses)
  }

  function SnapshotCandidates(config: Settings, w: RegionWorld): seq<Snapshot> {
    FindOldSnapshots(w.snapshots, w.now, config.snapshotDays.ValueOr(DefaultSnapshotDays))
  }

  function InstanceCandidates(config: Settings, w: RegionWorld): seq<StoppedInstance> {
    FindStoppedInstances(w.reservations, w.now, config.instanceDays.ValueOr(DefaultInstanceDays))
  }

  /** How many candidates of kind `k` a region has. */
  function Candidates(config: Settings, w: RegionWorld, k: Kind): nat {
    match k
    case Eips => |EipCandidates(w)|
    case Snapshots => |SnapshotCandidates(config, w)|
    case Instances => |InstanceCandidates(config, w)|
  }

  /** The failure oracle of kind `k`'s mutating calls. */
  function FailsOf(w: RegionWorld, k: Kind): nat -> bool {
    match k
    case Eips => w.releaseFails
    case Snapshots => w.deleteFails
    case Instances => w.terminateFails
  }

  /** The loop of kind `k`, or nothing when `k` is disabled. */
  function KindSweep(config: Settings, w: RegionWorld, k: Kind): (s: Sweep)
    ensures !config.Enabled(k) ==> s == Sweep(0, [], [])
    ensures config.Enabled(k) && config.DryRun() ==> s == Sweep(Candidates(config, w, k), [], [])
    ensures config.Enabled(k) && !config.DryRun() ==>
      |s.calls| == Candidates(config, w, k)
      && s.cleaned == Candidates(config, w, k) - |Positions(FailsOf(w, k), Candidates(config, w, k))|
      && |s.errors| == |Positions(FailsOf(w, k), Candidates(config, w, k))|
    ensures forall c :: c in s.calls ==> c.Kind() == k && config.Enabled(k)
    ensures |s.errors| == FailureCount(config, w, k)
  {
    if !config.Enabled(k) then Sweep(0, [], [])
    else match k
      case Eips => CleanElasticIps(EipCandidates(w), config.DryRun(), w.releaseFails)
      case Snapshots => CleanSnapshots(SnapshotCandidates(config, w), config.DryRun(), w.deleteFails)
      case Instances => TerminateAll(InstanceCandidates(config, w), config.DryRun(), w.terminateFails)
  }

  /** `cleanup_resources` for one region: each enabled kind counts its candidates in a dry
      run and its non-failing calls otherwise, with one error per failing call; a disabled
      kind stays at zero and issues nothing; a dry run issues nothing at all. */
  function CleanupResources(region: string, w: RegionWorld, config: Settings): (r: RegionCleanup)
    ensures r.result.region == region && r.result.timestamp == w.now
    ensures forall k :: !config.Enabled(k) ==> r.result.cleaned.Get(k) == 0
    ensures forall k :: config.Enabled(k) && config.DryRun() ==> r.result.cleaned.Get(k) == Candidates(config, w, k)
    ensures |r.result.errors| == FailureCount(config, w, Eips) + FailureCount(config, w, Snapshots) + FailureCount(config, w, Instances)
    ensures config.DryRun() ==> r.calls == [] && r.result.errors == []
    ensures forall c :: c in r.calls ==> config.Enabled(c.Kind())
  {
    var e := KindSweep(config, w, Eips);
    var s := KindSweep(config, w, Snapshots);
    var i := KindSweep(config, w, Instances);
    RegionCleanup(
      CleanupResult(region, w.now, Counts(e.cleaned, s.cleaned, i.cleaned), e.errors + s.errors + i.errors),
      e.calls + s.calls + i.calls)
  }

  /** In a live run each enabled kind counts its candidates whose call did not fail. */
  lemma LiveCountsExcludeFailures(region: string, w: RegionWorld, config: Settings, k: Kind)
    requires config.Enabled(k) && !config.DryRun()
    ensures CleanupResources(region, w, config).result.cleaned.Get(k)
         == Candidates(config, w, k) - FailureCount(config, w, k)
  {
    assert CleanupResources(region, w, config).result.cleaned.Get(k) == KindSweep(config, w, k).cleaned;
  }

  /** The number of live calls of kind `k`: one per candidate when the kind is enabled. */
  function LiveCalls(config: Settings, w: RegionWorld, k: Kind): nat {
    if config.Enabled(k) then Candidates(config, w, k) else 0
  }

  /** A live region issues one call per candidate of each enabled kind. */
  lemma RegionCallCount(region: string, w: RegionWorld, config: Settings)
    requires !config.DryRun()
    ensures |CleanupResources(region, w, config).calls|
         == LiveCalls(config, w, Eips) + LiveCalls(config, w, Snapshots) + LiveCalls(config, w, Instances)
  {
    RegionParts(region, w, config);
    EipCallsInOrder(config, w);
    SnapshotCallsInOrder(config, w);
    InstanceCallsInOrder(config, w);
  }

  /** A live region first releases its candidate addresses, one call each and in listing
      order. */
  lemma RegionReleaseAt(region: string, w: RegionWorld, config: Settings, j: nat)
    requires !config.DryRun() && j < LiveCalls(config, w, Eips)
    ensures CleanupResources(region, w, config).calls[j] == ReleaseCall(EipCandidates(w)[j])
  {
    RegionParts(region, w, config);
    EipCallsInOrder(config, w);
  }

  /** Next come the snapshot deletions, one per candidate snapshot and in order. */
  lemma RegionDeleteAt(region: string, w: RegionWorld, config: Settings, j: nat)
    requires !config.DryRun() && j < LiveCalls(config, w, Snapshots)
    ensures CleanupResources(region, w, config).calls[LiveCalls(config, w, Eips) + j]
         == DeleteSnapshot(SnapshotCandidates(config, w)[j].snapshotId)
  {
    RegionParts(region, w, config);
    EipCallsInOrder(config, w);
    SnapshotCallsInOrder(config, w);
  }

  /** Last come the instance terminations, one per candidate instance and in order. */
  lemma RegionTerminationAt(region: string, w: RegionWorld, config: Settings, j: nat)
    requires !config.DryRun() && j < LiveCalls(config, w, Instances)
    ensures CleanupResources(region, w, config).calls[LiveCalls(config, w, Eips) + LiveCalls(config, w, Snapshots) + j]
         == TerminateInstances([InstanceCandidates(config, w)[j].instanceId])
  {
    RegionParts(region, w, config);
    EipCallsInOrder(config, w);
    SnapshotCallsInOrder(config, w);
    InstanceCallsInOrder(config, w);
  }

  /** The first errors are the failing addresses, in order, each naming its own public IP. */
  lemma RegionReleaseErrorAt(region: string, w: RegionWorld, config: Settings, j: nat)
    requires j < |FailingPositions(config, w, Eips)|
    ensures CleanupResources(region, w, config).result.errors[j]
         == ReleaseFailed(EipCandidates(w)[FailingPositions(config, w, Eips)[j]].publicIp)
  {
    RegionParts(region, w, config);
    EipErrorsInOrder(config, w);
  }

  /** After them come the failing snapshots, in order, each naming its own snapshot id. */
  lemma RegionDeleteErrorAt(region: string, w: RegionWorld, config: Settings, j: nat)
    requires j < |FailingPositions(config, w, Snapshots)|
    ensures CleanupResources(region, w, config).result.errors[|FailingPositions(config, w, Eips)| + j]
         == DeleteFailed(SnapshotCandidates(config, w)[FailingPositions(config, w, Snapshots)[j]].snapshotId)
  {
    RegionParts(region, w, config);
    EipErrorsInOrder(config, w);
    SnapshotErrorsInOrder(config, w);
  }

  /** Last come the failing instances, in order, each naming its own id. */
  lemma RegionTerminateErrorAt(region: string, w: RegionWorld, config: Settings, j: nat)
    requires j < |FailingPositions(config, w, Instances)|
    ensures CleanupResources(region, w, config).result.errors[
              |FailingPositions(config, w, Eips)| + |FailingPositions(config, w, Snapshots)| + j]
         == TerminateFailed(InstanceCandidates(config, w)[FailingPositions(config, w, Instances)[j]].instanceId)
  {
    RegionParts(region, w, config);
    EipErrorsInOrder(config, w);
    SnapshotErrorsInOrder(config, w);
    InstanceErrorsInOrder(config, w);
  }

  /** A region's calls and errors are those of its three loops, in kind order. */
  lemma RegionParts(region: string, w: RegionWorld, config: Settings)
    ensures var r := CleanupResources(region, w, config);
      && r.calls == KindSweep(config, w, Eips).calls + KindSweep(config, w, Snapshots).calls + KindSweep(config, w, Instances).calls
      && r.result.errors == KindSweep(config, w, Eips).errors + KindSweep(config, w, Snapshots).errors
                            + KindSweep(config, w, Instances).errors
  {
  }

  lemma EipCallsInOrder(config: Settings, w: RegionWorld)
    requires !config.DryRun()
    ensures var e := KindSweep(config, w, Eips).calls;
      |e| == LiveCalls(config, w, Eips) && forall j :: 0 <= j < |e| ==> e[j] == ReleaseCall(EipCandidates(w)[j])
  {
    if config.Enabled(Eips) {
      EipReleasesInOrder(EipCandidates(w), w.releaseFails);
    }
  }

  lemma SnapshotCallsInOrder(config: Settings, w: RegionWorld)
    requires !config.DryRun()
    ensures var s := KindSweep(config, w, Snapshots).calls;
      |s| == LiveCalls(config, w, Snapshots)
      && forall j :: 0 <= j < |s| ==> s[j] == DeleteSnapshot(SnapshotCandidates(config, w)[j].snapshotId)
  {
    if config.Enabled(Snapshots) {
      SnapshotDeletesInOrder(SnapshotCandidates(config, w), w.deleteFails);
    }
  }

  lemma InstanceCallsInOrder(config: Settings, w: RegionWorld)
    requires !config.DryRun()
    ensures var i := KindSweep(config, w, Instances).calls;
      |i| == LiveCalls(config, w, Instances)
      && forall j :: 0 <= j < |i| ==> i[j] == TerminateInstances([InstanceCandidates(config, w)[j].instanceId])
  {
    if config.Enabled(Instances) {
      TerminationsInOrder(InstanceCandidates(config, w), w.terminateFails);
    }
  }

  /** The positions of the failing calls of kind `k` in a live run, none otherwise. */
  function FailingPositions(config: Settings, w: RegionWorld, k: Kind): seq<nat> {
    if config.Enabled(k) && !config.DryRun() then Positions(FailsOf(w, k), Candidates(config, w, k)) else []
  }

  lemma EipErrorsInOrder(config: Settings, w: RegionWorld)
    ensures var e := KindSweep(config, w, Eips).errors;
      var f := FailingPositions(config, w, Eips);
      |e| == |f| && forall j :: 0 <= j < |e| ==> e[j] == ReleaseFailed(EipCandidates(w)[f[j]].publicIp)
  {
    if config.Enabled(Eips) && !config.DryRun() {
      EipReleasesInOrder(EipCandidates(w), w.releaseFails);
    }
  }

  lemma SnapshotErrorsInOrder(config: Settings, w: RegionWorld)
    ensures var s := KindSweep(config, w, Snapshots).errors;
      var f := FailingPositions(config, w, Snapshots);
      |s| == |f| && forall j :: 0 <= j < |s| ==> s[j] == DeleteFailed(SnapshotCandidates(config, w)[f[j]].snapshotId)
  {
    if config.Enabled(Snapshots) && !config.DryRun() {
      SnapshotDeletesInOrder(SnapshotCandidates(config, w), w.deleteFails);
    }
  }

  lemma InstanceErrorsInOrder(config: Settings, w: RegionWorld)
    ensures var i := KindSweep(config, w, Instances).errors;
      var f := FailingPositions(config, w, Instances);
      |i| == |f| && forall j :: 0 <= j < |i| ==> i[j] == TerminateFailed(InstanceCandidates(config, w)[f[j]].instanceId)
  {
    if config.Enabled(Instances) && !config.DryRun() {
      TerminationsInOrder(InstanceCandidates(config, w), w.terminateFails);
    }
  }

  /** The number of failing calls of kind `k` in a live run, zero otherwise. */
  function FailureCount(config: Settings, w: RegionWorld, k: Kind): nat {
    if config.Enabled(k) && !config.DryRun() then |Positions(FailsOf(w, k), Candidates(config, w, k))| else 0
  }

  /** The configuration `lambda_handler` builds from the event: every key filled in with
      the same defaults `cleanup_resources` would apply to a missing one. */
  function HandlerConfig(event: Settings): (c: Settings)
    ensures c.dryRun.Some? && c.cleanEips.Some? && c.cleanSnapshots.Some? && c.cleanInstances.Some?
    ensures c.snapshotDays.Some? && c.instanceDays.Some?
    ensures c.DryRun() == event.DryRun() && forall k :: c.Enabled(k) == event.Enabled(k)
    ensures event.dryRun.None? ==> c.dryRun == Some(true)
    ensures event.cleanEips.None? ==> c.cleanEips == Some(false)
    ensures event.cleanSnapshots.None? ==> c.cleanSnapshots == Some(false)
    ensures event.cleanInstances.None? ==> c.cleanInstances == Some(false)
    ensures event.snapshotDays.None? ==> c.snapshotDays == Some(30)
    ensures event.instanceDays.None? ==> c.instanceDays == Some(7)
    ensures event.dryRun.Some? ==> c.dryRun == event.dryRun
    ensures event.cleanEips.Some? ==> c.cleanEips == event.cleanEips
    ensures event.cleanSnapshots.Some? ==> c.cleanSnapshots == event.cleanSnapshots
    ensures event.cleanInstances.Some? ==> c.cleanInstances == event.cleanInstances
    ensures event.snapshotDays.Some? ==> c.snapshotDays == event.snapshotDays
    ensures event.instanceDays.Some? ==> c.instanceDays == event.instanceDays
  {
    Settings(
      Some(event.dryRun.ValueOr(true)),
      Some(event.cleanEips.ValueOr(false)),
      Some(event.cleanSnapshots.ValueOr(false)),
      Some(event.cleanInstances.ValueOr(false)),
      Some(event.snapshotDays.ValueOr(30)),
      Some(event.instanceDays.ValueOr(7)))
  }

  /** Filling in the handler's defaults changes nothing: the handler's defaults and the
      per-region defaults agree, so a region cleans the same with either configuration. */
  lemma HandlerDefaultsAgree(region: string, w: RegionWorld, event: Settings)
    ensures CleanupResources(region, w, HandlerConfig(event)) == CleanupResources(region, w, event)
  {
    var c := HandlerConfig(event);
    assert c.snapshotDays.ValueOr(DefaultSnapshotDays) == event.snapshotDays.ValueOr(DefaultSnapshotDays);
    assert c.instanceDays.ValueOr(DefaultInstanceDays) == event.instanceDays.ValueOr(DefaultInstanceDays);
    assert forall k :: KindSweep(c, w, k) == KindSweep(event, w, k);
  }

  /** With every key missing, a region pass is a dry run of no kind: nothing is counted,
      reported or called. */
  lemma EmptyConfigDoesNothing(region: string, w: RegionWorld)
    ensures var r := CleanupResources(region, w, Settings(None, None, None, None, None, None));
      r.result.cleaned == NoneCleaned && r.result.errors == [] && r.calls == []
  {
    var config := Settings(None, None, None, None, None, None);
    assert forall k :: !config.Enabled(k);
    var r := CleanupResources(region, w, config);
    assert r.result.cleaned.Get(Eips) == 0 && r.result.cleaned.Get(Snapshots) == 0 && r.result.cleaned.Get(Instances) == 0;
  }

  // ----- lambda_handler -----

  /** The `regions` key of the event: a list of region names, or a value that cannot be
      iterated (`null`, a number, a boolean). */
  datatype RegionsField = RegionNames(names: seq<string>) | NotIterable

  datatype Event = Event(regions: Option<RegionsField>, settings: Settings)

  /** The invocation payload: an object, or any other JSON value. */
  datatype Payload = Object(event: Event) | NotAnObject

  /** The exception that ends an invocation early. */
  datatype Fault =
    | EventNotAnObject      // `event.get` on a non-object
    | RegionsNotIterable    // `for region in regions` on a non-iterable value
    | NoRegion              // a client for no region: no `regions` and no session default, or an empty name and no default

  datatype Body =
    | Completed(message: string, totalCleaned: Counts, regionsProcessed: nat, dryRun: bool,
                detailedResults: seq<CleanupResult>, errors: seq<ItemError>)
    | Aborted(error: Fault, message: string)

  datatype Response = Response(statusCode: int, body: Body)

  /** The response together with every mutating call the invocation issued. */
  datatype Invocation = Invocation(response: Response, calls: seq<Call>)

  /** `LambdaResourceCleaner(region)`: `region or session_region`, so an absent or empty
      name falls back to the session's region, which may itself be absent. */
  function ResolveRegion(region: Option<string>, sessionRegion: Option<string>): (r: Option<string>)
    ensures region.Some? && region.value != "" ==> r == region
    ensures region.None? || region == Some("") ==> r == sessionRegion
  {
    match region
    case Some(name) => if name != "" then Some(name) else sessionRegion
    case None => sessionRegion
  }

  /** The region loop so far: the results, the calls, and the fault that stopped it. */
  datatype Processed = Processed(results: seq<CleanupResult>, calls: seq<Call>, fault: Option<Fault>)

  /** The region loop of `lambda_handler`: region by region, until a region has no name to
      build a client for; `clean(name, i)` is the `i`-th region's `cleanup_resources`. */
  function ProcessRegions(regions: seq<Option<string>>, sessionRegion: Option<string>,
                          clean: (string, nat) -> RegionCleanup): (r: Processed)
    ensures r.fault.None? <==> forall i :: 0 <= i < |regions| ==> ResolveRegion(regions[i], sessionRegion).Some?
    ensures r.fault.None? ==> |r.results| == |regions|
    ensures r.fault.Some? ==> r.fault == Some(NoRegion)
    ensures (forall name, i :: clean(name, i).calls == []) ==> r.calls == []
    ensures r.calls == RegionsCalls(regions, sessionRegion, clean, Reached(regions, sessionRegion))
  {
    if |regions| == 0 then Processed([], [], None)
    else
      var i := |regions| - 1;
      var prev := ProcessRegions(regions[..i], sessionRegion, clean);
      assert forall j :: 0 <= j < i ==> regions[..i][j] == regions[j];
      var m := Reached(regions[..i], sessionRegion);
      RegionsCallsOfPrefix(regions, i, sessionRegion, clean, m);
      if prev.fault.Some? then
        assert exists j :: 0 <= j < i && ResolveRegion(regions[..i][j], sessionRegion).None?;
        prev
      else match ResolveRegion(regions[i], sessionRegion)
        case None => prev.(fault := Some(NoRegion))
        case Some(name) =>
          var c := clean(name, i);
          Processed(prev.results + [c.result], prev.calls + c.calls, None)
  }

  /** How many regions the loop gets through: it stops at the first region that resolves
      to no name, or after the last. */
  function Reached(regions: seq<Option<string>>, sessionRegion: Option<string>): (n: nat)
    ensures n <= |regions|
    ensures forall i :: 0 <= i < n ==> ResolveRegion(regions[i], sessionRegion).Some?
    ensures n < |regions| ==> ResolveRegion(regions[n], sessionRegion).None?
  {
    if |regions| == 0 then 0
    else
      var i := |regions| - 1;
      var m := Reached(regions[..i], sessionRegion);
      assert forall j :: 0 <= j < i ==> regions[..i][j] == regions[j];
      if m < i || ResolveRegion(regions[i], sessionRegion).None? then m else i + 1
  }

  /** The calls of the first `n` regions' cleanups, one region after the other. */
  function RegionsCalls(regions: seq<Option<string>>, sessionRegion: Option<string>,
                        clean: (string, nat) -> RegionCleanup, n: nat): seq<Call>
    requires n <= |regions|
    requires forall i :: 0 <= i < n ==> ResolveRegion(regions[i], sessionRegion).Some?
  {
    if n == 0 then []
    else RegionsCalls(regions, sessionRegion, clean, n - 1) + clean(ResolveRegion(regions[n - 1], sessionRegion).value, n - 1).calls
  }

  /** The calls of the first `n` regions do not depend on the regions after them. */
  lemma {:induction false} RegionsCallsOfPrefix(regions: seq<Option<string>>, k: nat, sessionRegion: Option<string>,
                                                clean: (string, nat) -> RegionCleanup, n: nat)
    requires n <= k <= |regions|
    requires forall i :: 0 <= i < n ==> ResolveRegion(regions[i], sessionRegion).Some?
    ensures RegionsCalls(regions[..k], sessionRegion, clean, n) == RegionsCalls(regions, sessionRegion, clean, n)
  {
    if n > 0 {
      RegionsCallsOfPrefix(regions, k, sessionRegion, clean, n - 1);
      assert regions[..k][n - 1] == regions[n - 1];
    }
  }

  /** Every call of a region loop under one configuration is of a kind that configuration
      enables. */
  lemma {:induction false} RegionsCallsEnabled(regions: seq<Option<string>>, sessionRegion: Option<string>,
                                               worlds: nat -> RegionWorld, config: Settings, n: nat)
    requires n <= |regions|
    requires forall i :: 0 <= i < n ==> ResolveRegion(regions[i], sessionRegion).Some?
    ensures forall c :: c in RegionsCalls(regions, sessionRegion, CleanRegion(worlds, config), n) ==> config.Enabled(c.Kind())
  {
    if n > 0 {
      RegionsCallsEnabled(regions, sessionRegion, worlds, config, n - 1);
      var name := ResolveRegion(regions[n - 1], sessionRegion).value;
      assert CleanRegion(worlds, config)(name, n - 1) == CleanupResources(name, worlds(n - 1), config);
    }
  }

  /** Without a fault, the i-th result is the i-th region's cleanup, under the name its
      client was built for. */
  lemma {:induction false} ResultFollowsRegion(regions: seq<Option<string>>, sessionRegion: Option<string>,
                                               clean: (string, nat) -> RegionCleanup, i: nat)
    requires i < |regions|
    ensures var r := ProcessRegions(regions, sessionRegion, clean);
      r.fault.None? ==> r.results[i] == clean(ResolveRegion(regions[i], sessionRegion).value, i).result
  {
    var n := |regions| - 1;
    ProcessRegionsStep(regions, sessionRegion, clean);
    if i < n {
      ResultFollowsRegion(regions[..n], sessionRegion, clean, i);
      assert regions[..n][i] == regions[i];
    }
  }

  /** A fault-free region loop extends the loop over all but the last region by the last
      region's result. */
  lemma ProcessRegionsStep(regions: seq<Option<string>>, sessionRegion: Option<string>,
                           clean: (string, nat) -> RegionCleanup)
    requires |regions| > 0
    ensures var n := |regions| - 1;
      var r := ProcessRegions(regions, sessionRegion, clean);
      var prev := ProcessRegions(regions[..n], sessionRegion, clean);
      r.fault.None? ==>
        && prev.fault.None?
        && ResolveRegion(regions[n], sessionRegion).Some?
        && r.results == prev.results + [clean(ResolveRegion(regions[n], sessionRegion).value, n).result]
  {
  }

  /** The aggregation loop: the totals and the errors gathered so far, then the results
      still to go. */
  function Aggregate(results: seq<CleanupResult>, total: Counts, errors: seq<ItemError>): (r: (Counts, seq<ItemError>))
    ensures forall k :: r.0.Get(k) == total.Get(k) + SumCleaned(results, k)
    ensures r.1 == errors + AllErrors(results)
  {
    if |results| == 0 then (total, errors)
    else
      var head := results[0];
      var t := total.Add(Eips, head.cleaned.eips).Add(Snapshots, head.cleaned.snapshots).Add(Instances, head.cleaned.instances);
      var r := Aggregate(results[1..], t, errors + head.errors);
      assert errors + head.errors + AllErrors(results[1..]) == errors + (head.errors + AllErrors(results[1..]));
      r
  }

  /** The regions' counts of kind `k`, added up. */
  function SumCleaned(results: seq<CleanupResult>, k: Kind): nat {
    if |results| == 0 then 0 else results[0].cleaned.Get(k) + SumCleaned(results[1..], k)
  }

  /** The regions' error lists, one after the other in region order. */
  function AllErrors(results: seq<CleanupResult>): seq<ItemError> {
    if |results| == 0 then [] else results[0].errors + AllErrors(results[1..])
  }

  /** `lambda_handler`. On success: status 200, each total the sum of the regions' counts,
      the errors of all regions in region order, one result per region. Any exception
      becomes status 500 with the fault and `'Cleanup failed'`. A dry run issues no call,
      whatever the outcome. */
  function LambdaHandler(payload: Payload, sessionRegion: Option<string>, worlds: nat -> RegionWorld): (out: Invocation)
    ensures out.response.statusCode == 200 <==> out.response.body.Completed?
    ensures out.response.statusCode == 200 || out.response.statusCode == 500
    ensures out.response.body.Aborted? ==> out.response.body.message == "Cleanup failed"
    ensures payload.NotAnObject? ==> out == Invocation(Response(500, Aborted(EventNotAnObject, "Cleanup failed")), [])
    ensures payload.Object? && payload.event.regions == Some(NotIterable) ==>
      out == Invocation(Response(500, Aborted(RegionsNotIterable, "Cleanup failed")), [])
    ensures out.response.body.Completed? ==>
      var b := out.response.body;
      && payload.Object?
      && b.regionsProcessed == |b.detailedResults|
      && (payload.event.regions.Some? ==> b.regionsProcessed == |payload.event.regions.value.names|)
      && (payload.event.regions.None? ==> b.regionsProcessed == 1)
      && b.dryRun == payload.event.settings.DryRun()
      && (forall k :: b.totalCleaned.Get(k) == SumCleaned(b.detailedResults, k))
      && b.errors == AllErrors(b.detailedResults)
    ensures payload.Object? && payload.event.settings.DryRun() ==> out.calls == []
    ensures payload.Object? ==> forall c :: c in out.calls ==> payload.event.settings.Enabled(c.Kind())
    ensures payload.Object? && payload.event.regions.Some? && payload.event.regions.value.RegionNames? ==>
      var regions := NamedRegions(payload.event.regions.value.names);
      out.calls == RegionsCalls(regions, sessionRegion, CleanRegion(worlds, HandlerConfig(payload.event.settings)),
                                Reached(regions, sessionRegion))
    ensures payload.Object? && payload.event.regions.None? ==>
      out.calls == RegionsCalls([sessionRegion], sessionRegion, CleanRegion(worlds, HandlerConfig(payload.event.settings)),
                                Reached([sessionRegion], sessionRegion))
    ensures payload.Object? && payload.event.regions.Some? && payload.event.regions.value.RegionNames? ==>
      (out.response.statusCode == 200 <==> AllNamed(payload.event.regions.value.names, sessionRegion))
    ensures payload.Object? && payload.event.regions.None? ==>
      (out.response.statusCode == 200 <==> sessionRegion.Some?)
  {
    match payload
    case NotAnObject => Invocation(Response(500, Aborted(EventNotAnObject, "Cleanup failed")), [])
    case Object(event) =>
      var config := HandlerConfig(event.settings);
      match event.regions
      case Some(NotIterable) => Invocation(Response(500, Aborted(RegionsNotIterable, "Cleanup failed")), [])
      case Some(RegionNames(names)) => RunRegions(NamedRegions(names), sessionRegion, worlds, config)
      case None => RunRegions([sessionRegion], sessionRegion, worlds, config)
  }

  /** Every listed name gives a client a region: it is non-empty, or the session has a
      region to fall back on. */
  predicate AllNamed(names: seq<string>, sessionRegion: Option<string>) {
    forall i :: 0 <= i < |names| ==> names[i] != "" || sessionRegion.Some?
  }

  /** A list of region names as the entries of the region loop. */
  function NamedRegions(names: seq<string>): (regions: seq<Option<string>>)
    ensures |regions| == |names|
    ensures forall i :: 0 <= i < |names| ==> regions[i] == Some(names[i])
  {
    seq(|names|, i requires 0 <= i < |names| => Some(names[i]))
  }

  /** The body of `lambda_handler` once the configuration and the region list are known. */
  function RunRegions(regions: seq<Option<string>>, sessionRegion: Option<string>, worlds: nat -> RegionWorld,
                      config: Settings): (out: Invocation)
    requires config.dryRun.Some?
    ensures out.response.statusCode == 200 <==> out.response.body.Completed?
    ensures out.response.body.Completed? <==>
      forall i :: 0 <= i < |regions| ==> ResolveRegion(regions[i], sessionRegion).Some?
    ensures out.response.statusCode == 200 || out.response.statusCode == 500
    ensures out.response.body.Aborted? ==> out.response.body == Aborted(NoRegion, "Cleanup failed")
    ensures out.response.body.Completed? ==>
      var b := out.response.body;
      && b.regionsProcessed == |regions| == |b.detailedResults|
      && b.dryRun == config.dryRun.value
      && (forall k :: b.totalCleaned.Get(k) == SumCleaned(b.detailedResults, k))
      && b.errors == AllErrors(b.detailedResults)
    ensures config.DryRun() ==> out.calls == []
    ensures out.calls == RegionsCalls(regions, sessionRegion, CleanRegion(worlds, config), Reached(regions, sessionRegion))
    ensures forall c :: c in out.calls ==> config.Enabled(c.Kind())
  {
    var clean := CleanRegion(worlds, config);
    RegionsCallsEnabled(regions, sessionRegion, worlds, config, Reached(regions, sessionRegion));
    var p := ProcessRegions(regions, sessionRegion, clean);
    assert config.DryRun() ==> p.calls == [] by {
      if config.DryRun() {
        forall name: string, i: nat ensures clean(name, i).calls == [] {
          assert clean(name, i) == CleanupResources(name, worlds(i), config);
        }
      }
    }
    if p.fault.Some? then Invocation(Response(500, Aborted(p.fault.value, "Cleanup failed")), p.calls)
    else
      var agg := Aggregate(p.results, NoneCleaned, []);
      Invocation(
        Response(200, Completed("Cleanup completed successfully", agg.0, |regions|, config.dryRun.value,
                                p.results, agg.1)),
        p.calls)
  }

  /** The `i`-th region's `cleanup_resources`, under a given name. */
  function CleanRegion(worlds: nat -> RegionWorld, config: Settings): (string, nat) -> RegionCleanup {
    (name: string, i: nat) => CleanupResources(name, worlds(i), config)
  }

  /** On success, the `i`-th detailed result is `cleanup_resources` of the `i`-th region,
      run under the name its client was built for and with the handler's configuration. */
  lemma RegionResultIsCleanup(regions: seq<Option<string>>, sessionRegion: Option<string>,
                              worlds: nat -> RegionWorld, config: Settings, i: nat)
    requires config.dryRun.Some? && i < |regions|
    ensures var b := RunRegions(regions, sessionRegion, worlds, config).response.body;
      b.Completed? ==>
        && ResolveRegion(regions[i], sessionRegion).Some?
        && b.detailedResults[i] == CleanupResources(ResolveRegion(regions[i], sessionRegion).value, worlds(i), config).result
  {
    var clean := CleanRegion(worlds, config);
    ResultFollowsRegion(regions, sessionRegion, clean, i);
  }

  /** For an event listing its regions, the `i`-th detailed result of a successful
      invocation is `cleanup_resources` of the `i`-th name (the session's region for an
      empty name) with the event's own settings, defaults left to `cleanup_resources`. */
  lemma HandlerResultIsCleanup(names: seq<string>, settings: Settings, sessionRegion: Option<string>,
                               worlds: nat -> RegionWorld, i: nat)
    requires i < |names|
    ensures var b := LambdaHandler(Object(Event(Some(RegionNames(names)), settings)), sessionRegion, worlds).response.body;
      b.Completed? ==>
        && ResolveRegion(Some(names[i]), sessionRegion).Some?
        && b.detailedResults[i] == CleanupResources(ResolveRegion(Some(names[i]), sessionRegion).value, worlds(i), settings).result
  {
    var config := HandlerConfig(settings);
    var regions := NamedRegions(names);
    RegionResultIsCleanup(regions, sessionRegion, worlds, config, i);
    var name := ResolveRegion(regions[i], sessionRegion);
    if name.Some? {
      HandlerDefaultsAgree(name.value, worlds(i), settings);
    }
  }
}

=== FILE: records.dfy ===
/** The records the cleaners work on: provider listings, candidate dictionaries, the
    mutating calls, the per-item error messages, and the per-kind counters. */
module Records {
  import opened Basics

  /** Seconds in one `timedelta(days=1)`; timestamps are whole seconds. */
  const SecondsPerDay: int := 86400

  /** The largest magnitude `timedelta(days=...)` accepts. */
  const MaxTimedeltaDays: int := 999999999

  /** `datetime.min` and the last whole second of `datetime.max`, in seconds from
      1970-01-01T00:00:00 (the origin of every timestamp of the model). */
  const MinDatetime: int := -62135596800
  const MaxDatetime: int := 253402300799

  /** `datetime.now() - timedelta(days=days)`, or nothing when that raises
      `OverflowError`: a day count `timedelta` refuses, or an instant before year 1 or
      after year 9999. Seconds are whole, and the fraction of `now` never moves the
      difference across either bound. */
  function Cutoff(now: int, days: int): (c: Option<int>)
    ensures c.Some? <==>
      && -MaxTimedeltaDays <= days <= MaxTimedeltaDays
      && MinDatetime <= now - days * 86400 <= MaxDatetime
    ensures c.Some? ==> c.value == now - days * 86400
  {
    var t := now - days * SecondsPerDay;
    if -MaxTimedeltaDays <= days <= MaxTimedeltaDays && MinDatetime <= t <= MaxDatetime then Some(t) else None
  }

  /** One entry of `describe_addresses()['Addresses']`; every field may be absent. */
  datatype RawAddress = RawAddress(
    instanceId: Option<string>,
    networkInterfaceId: Option<string>,
    allocationId: Option<string>,
    publicIp: Option<string>,
    domain: Option<string>)

  /** The candidate dictionary built for an unattached Elastic IP. */
  datatype Eip = Eip(allocationId: Option<string>, publicIp: Option<string>, domain: string)

  /** One entry of `describe_snapshots(OwnerIds=['self'])['Snapshots']`. */
  datatype RawSnapshot = RawSnapshot(
    snapshotId: string,
    description: Option<string>,
    startTime: int,
    volumeSize: nat)

  /** The candidate dictionary built for an old snapshot. */
  datatype Snapshot = Snapshot(snapshotId: string, description: string, startTime: int, volumeSize: nat)

  datatype Tag = Tag(key: string, value: string)

  /** One entry of a reservation's `Instances`; `stateName` is `instance['State']['Name']`. */
  datatype RawInstance = RawInstance(
    instanceId: string,
    instanceType: string,
    launchTime: int,
    stateName: string,
    stateTransitionReason: Option<string>,
    tags: Option<seq<Tag>>)

  datatype Reservation = Reservation(instances: seq<RawInstance>)

  /** The candidate dictionary built for a long-stopped instance. */
  datatype StoppedInstance = StoppedInstance(
    instanceId: string,
    instanceType: string,
    launchTime: int,
    state: string,
    name: string)

  /** The three resource kinds, in the order both entry points process them. */
  datatype Kind = Eips | Snapshots | Instances

  /** A mutating provider call. */
  datatype Call =
    | ReleaseByAllocationId(allocationId: Option<string>)
    | ReleaseByPublicIp(publicIp: Option<string>)
    | DeleteSnapshot(snapshotId: string)
    | TerminateInstances(instanceIds: seq<string>)
  {
    function Kind(): Kind {
      match this
      case ReleaseByAllocationId(_) => Eips
      case ReleaseByPublicIp(_) => Eips
      case DeleteSnapshot(_) => Snapshots
      case TerminateInstances(_) => Instances
    }
  }

  /** A per-item error message, keyed the way the source's f-strings key it; the
      exception's own text is not modelled. */
  datatype ItemError =
    | ReleaseFailed(publicIp: Option<string>)
    | DeleteFailed(snapshotId: string)
    | TerminateFailed(instanceId: string)

  /** The `{'eips': .., 'snapshots': .., 'instances': ..}` counters. */
  datatype Counts = Counts(eips: nat, snapshots: nat, instances: nat) {

    function Get(k: Kind): nat {
      match k
      case Eips => eips
      case Snapshots => snapshots
      case Instances => instances
    }

    /** `counts[k] += n`. */
    function Add(k: Kind, n: nat): (c: Counts)
      ensures c.Get(k) == Get(k) + n
      ensures forall j :: j != k ==> c.Get(j) == Get(j)
    {
      match k
      case Eips => this.(eips := eips + n)
      case Snapshots => this.(snapshots := snapshots + n)
      case Instances => this.(instances := instances + n)
    }
  }

  const NoneCleaned: Counts := Counts(0, 0, 0)

  /** Everything one region's pass observes from the outside: the clock reading, the three
      describe listings, and, per kind, which items' mutating call fails (by position in
      the candidate list). */
  datatype RegionWorld = RegionWorld(
    now: int,
    addresses: Describe<RawAddress>,
    snapshots: Describe<RawSnapshot>,
    reservations: Describe<Reservation>,
    releaseFails: nat -> bool,
    deleteFails: nat -> bool,
    terminateFails: nat -> bool)
}

=== FILE: seqs.dfy ===
/** Sequence helpers shared by the finders and the cleaners. */
module Seqs {

  /** The elements of `xs` that satisfy `keep`, each seen through `view`, in the order of `xs`:
      the shape of every `for x in response: if ...: result.append({...})` loop. */
  function Select<T, U>(keep: T -> bool, view: T -> U, xs: seq<T>): (r: seq<U>)
    ensures |r| <= |xs|
    ensures forall i :: 0 <= i < |xs| && keep(xs[i]) ==> view(xs[i]) in r
    ensures forall y :: y in r ==> exists i :: 0 <= i < |xs| && keep(xs[i]) && y == view(xs[i])
  {
    if |xs| == 0 then []
    else
      var rest := Select(keep, view, xs[1..]);
      assert forall i :: 1 <= i < |xs| ==> xs[i] == xs[1..][i - 1];
      (if keep(xs[0]) then [view(xs[0])] else []) + rest
  }

  /** Selecting from a concatenation selects from each part and keeps the parts in order;
      together with the one-element case this pins down order and multiplicity. */
  lemma {:induction false} SelectAppend<T, U>(keep: T -> bool, view: T -> U, xs: seq<T>, ys: seq<T>)
    ensures Select(keep, view, xs + ys) == Select(keep, view, xs) + Select(keep, view, ys)
  {
    if |xs| == 0 {
      assert xs + ys == ys;
    } else {
      assert (xs + ys)[1..] == xs[1..] + ys;
      SelectAppend(keep, view, xs[1..], ys);
    }
  }

  /** A one-element listing yields its view exactly when it is kept. */
  lemma SelectSingle<T, U>(keep: T -> bool, view: T -> U, x: T)
    ensures Select(keep, view, [x]) == if keep(x) then [view(x)] else []
  {
    assert [x][1..] == [];
  }

  /** The positions below `n` at which `p` holds, in increasing order. */
  function Positions(p: nat -> bool, n: nat): (r: seq<nat>)
    ensures |r| <= n
    ensures forall k :: 0 <= k < |r| ==> r[k] < n
  {
    if n == 0 then [] else Positions(p, n - 1) + (if p(n - 1) then [n - 1] else [])
  }

  /** Every listed position satisfies `p`. */
  lemma {:induction false} PositionsSound(p: nat -> bool, n: nat)
    ensures forall k :: 0 <= k < |Positions(p, n)| ==> p(Positions(p, n)[k])
  {
    if n > 0 {
      PositionsSound(p, n - 1);
    }
  }

  /** Every position below `n` that satisfies `p` is listed. */
  lemma {:induction false} PositionsComplete(p: nat -> bool, n: nat)
    ensures forall i :: 0 <= i < n && p(i) ==> i in Positions(p, n)
  {
    if n > 0 {
      PositionsComplete(p, n - 1);
      var prev := Positions(p, n - 1);
      var r := Positions(p, n);
      assert r == prev + (if p(n - 1) then [n - 1] else []);
      forall i | 0 <= i < n && p(i) ensures i in r {
        if i < n - 1 {
          assert i in prev;
        } else {
          assert r[|r| - 1] == i;
        }
      }
    }
  }

  /** The positions are listed in strictly increasing order, hence each at most once. */
  lemma {:induction false} PositionsIncreasing(p: nat -> bool, n: nat)
    ensures forall k, l :: 0 <= k < l < |Positions(p, n)| ==> Positions(p, n)[k] < Positions(p, n)[l]
  {
    if n > 0 {
      PositionsIncreasing(p, n - 1);
      var prev := Positions(p, n - 1);
      var r := Positions(p, n);
      assert r == prev + (if p(n - 1) then [n - 1] else []);
      assert forall k :: 0 <= k < |prev| ==> r[k] == prev[k] && prev[k] < n - 1;
    }
  }

  /** With `p` false everywhere below `n`, nothing is listed. */
  lemma {:induction false} PositionsNone(p: nat -> bool, n: nat)
    requires forall i :: 0 <= i < n ==> !p(i)
    ensures Positions(p, n) == []
  {
    if n > 0 {
      PositionsNone(p, n - 1);
    }
  }

  /** Concatenation regroups. */
  lemma Regroup<T>(a: seq<T>, b: seq<T>, c: seq<T>)
    ensures (a + b) + c == a + (b + c)
  {
  }
}

=== FILE: text.dfy ===
/** The two string operations the instance finder of the command-line tool relies on. */
module Text {

  /** Python's `needle in hay` on strings: `needle` occurs as a contiguous slice of `hay`. */
  predicate Contains(hay: string, needle: string) {
    exists i :: 0 <= i <= |hay| && OccursAt(hay, needle, i)
  }

  /** `needle` starts at position `i` of `hay`. */
  predicate OccursAt(hay: string, needle: string, i: int) {
    0 <= i && i + |needle| <= |hay| && hay[i..i + |needle|] == needle
  }

  /** A string never contains a longer one. */
  lemma ShorterContainsNothingLonger(hay: string, needle: string)
    requires |hay| < |needle|
    ensures !Contains(hay, needle)
  {
  }

  /** `str.lower()` on one character, for the ASCII letters. */
  function LowerChar(c: char): (d: char)
    ensures 'A' <= c <= 'Z' ==> 'a' <= d <= 'z' && d as int - c as int == 'a' as int - 'A' as int
    ensures !('A' <= c <= 'Z') ==> d == c
  {
    if 'A' <= c <= 'Z' then (c as int - 'A' as int + 'a' as int) as char else c
  }

  /** `str.lower()`, character by character. */
  function Lower(s: string): (t: string)
    ensures |t| == |s|
    ensures forall i :: 0 <= i < |s| ==> t[i] == LowerChar(s[i])
  {
    if |s| == 0 then [] else [LowerChar(s[0])] + Lower(s[1..])
  }
}
